=== FILE: README.md ===
# hyoungje-server core, modelled in Dafny

This project models the stateful core of the NestJS marketplace backend
"hyoungje-server" and proves properties of it. The core covers:

- the transaction runner and its `@Transaction()` decorator;
- the per-market document counter;
- the e-mail verification-code store and the service that issues, checks
  and expires codes;
- the user account rules: sign-up, the password policy, login-id masking,
  e-mail registration and the code-based password reset;
- the authentication service: credential check, the access/refresh token
  pair, refresh and the verification code on the user row;
- the JWT guard, with its Bearer parsing and cookie copy;
- the cookie jar of the auth and user controllers;
- bookmarks, comments, the ownership gate and image merge of the post
  controller;
- the YouTube playlist refresh.

Database tables are sequences of rows held in class fields. `findOne` is
the first match in table order. Time is an explicit `now` (milliseconds),
and `Math.random()` is the whole number `draw` below 900000. bcrypt and JWT
signing and verification are function values (`Crypto.Hasher`,
`Crypto.Jwt`). What a lemma needs of them is a hypothesis: `Crypto.Matches`,
`Crypto.Accepts`. Mail delivery is an entry in an `outbox`. A thrown
exception is the `Err` of a `Result`, whose `Failure` names the HTTP
exception class (`Wrappers.Failure`).

Modules follow the source files:

| module | file |
|---|---|
| `Transaction` | transaction.service.ts |
| `DocumentCounter` | documentCounter.service.ts |
| `EmailRepository` | email.repository.ts |
| `EmailService` | email.service.ts |
| `Users` | the User table under user.repository.ts |
| `UserRules` | the part of user.service.ts that auth.service.ts calls back into |
| `UserService` | the rest of user.service.ts |
| `AuthService` | auth.service.ts |
| `AuthGuard` | auth.guard.ts |
| `Http` | the request and response objects |
| `AuthController` | auth.controller.ts |
| `UserController` | user.controller.ts |
| `Bookmarks` | bookmark.service.ts |
| `Comments` | comments.service.ts |
| `Posts` | the Post table under post.service.ts |
| `PostController` | post.controller.ts |
| `Youtube` | youtube.service.ts |

`Wrappers`, `Strings` and `Tables` hold helpers: Result and Option,
decimal printing and parsing, split/join, and filtering.

Where the behaviour one would expect from the service's description
differs from what the code does, the model follows the code:

- **Post creation.** `create` spreads the body after `userId: user.sub`, so
  a `userId` in the body wins over the token's `sub`.
  `PostController.PostController.Create` states that.
- **Post `findOne`.** It calls `findPrevAndNextPost`, which `PostService`
  lacks. See Findings.
- **Post update without files.** `update` leaves `image` as the body holds
  it, rather than unset.
- **`updatePlaylistItems` errors.** Its `getPlaylist` call runs before the
  `try`, so an unknown channel's NotFound is not swallowed.
- **Guard cookie copy.** The guard reads the header before `getRequest`
  copies the cookie, so a cookie-only request is refused.
- **Code check on delete.** `verifyAuthCode` guards its delete with
  `updatedAt`, which a stored row always has, so the guard always holds.
- **`registerEmail`.** It checks only that a live code record exists for the
  address. It never compares a code.

## Model

| member | source | states |
|---|---|---|
| `Transaction.TransactionService.RunInTransaction` | src/transaction/transaction.service.ts:8-20 | Every call opens a fresh handle, numbered by the calls so far. A normal return commits the handle's view and passes the result through. A throw rolls back and rethrows the same error, with the committed state unchanged. An operation that finished the handle itself makes the call fail with the ORM's finished-transaction error. |
| `Transaction.TransactionService.Finish` | src/transaction/transaction.service.ts:12-19 | On an open handle: a normal outcome is committed and returned unchanged; a thrown one is rolled back and rethrown, and commit is never reached. On a handle already finished: the rollback error is raised and nothing is committed. |
| `Transaction.TxHandle.Commit` | src/transaction/transaction.service.ts:14 | Committing an open handle publishes its view and finishes it. Committing a finished handle throws and changes nothing. |
| `Transaction.TxHandle.Rollback` | src/transaction/transaction.service.ts:17 | Rolling back an open handle finishes it without publishing. Rolling back a finished handle throws. |
| `Transaction.Transactional` | src/transaction/transaction.service.ts:23-44 | Without an injected `TransactionService` the call throws 'TransactionService is not injected in the class'. Otherwise it opens exactly one handle. The original method receives the caller's arguments unchanged, followed by that handle, and its step is settled as `runInTransaction` settles it. |
| `DocumentCounter.DocumentCounterService.GetNextDocumentNumber` | src/documentCounter/documentCounter.service.ts:12-33 | With no row the counter is created at 1; otherwise it goes up by exactly 1. The number returned is the stored counter after the call, is at least 1, and no other market's counter changes. |
| `DocumentCounter.AfterCounts` | src/documentCounter/documentCounter.service.ts:16-30 | After k calls for one market, its row holds its starting value plus k, and every other market's row is as it was. |
| `DocumentCounter.Consecutive` | src/documentCounter/documentCounter.service.ts:22-32 | k successive calls return the starting value plus 1, 2, ..., k: consecutive numbers, no repeat and no gap. |
| `DocumentCounter.FromEmpty` | src/documentCounter/documentCounter.service.ts:22-32 | From a table with no row for the market, n calls return 1, 2, ..., n. |
| `EmailRepository.FindLive` | src/email/email.repository.ts:18-22 | The position found holds a row for the address with `tokenExpires` strictly after now. None is found exactly when no such row exists. |
| `EmailRepository.WithoutEmail` | src/email/email.repository.ts:24-26 | Every row for the address is gone, live or expired, and every row for another address stays. |
| `EmailRepository.NoneLiveAfterDelete` | src/email/email.repository.ts:24-26 | After `deleteEmail(e)`, `findEmail(e)` finds nothing. |
| `EmailRepository.LiveUntilExpiry` | src/email/email.repository.ts:13-22 | A code stored at an instant is found up to, and not at or after, five minutes later. |
| `EmailRepository.EmailTable.CreateEmail` | src/email/email.repository.ts:13-16 | It appends one row with the address, the code and an expiry of now + 300000 ms, and leaves existing rows as they are. |
| `EmailRepository.EmailTable.FindEmail` | src/email/email.repository.ts:18-22 | It returns a row exactly when a row for the address has not expired (strictly), and then that row. |
| `EmailRepository.EmailTable.DeleteEmail` | src/email/email.repository.ts:24-26 | The table becomes the table without the address's rows. |
| `EmailRepository.EmailTable.SaveRow` | src/email/email.service.ts:53-55 | It overwrites the code and expiry of one row and touches nothing else. |
| `EmailService.GenerateAuthCode` | src/email/email.service.ts:81-84 | The code is exactly six decimal digits and spells 100000 + draw, a number in [100000, 999999]. |
| `EmailService.Reissue` | src/email/email.service.ts:45-56 | The table grows by at most one row, and every row that is not live for the address is left as it was. |
| `EmailService.Check` | src/email/email.service.ts:61-79 | It throws the expiry error exactly when no live row exists, and then changes nothing. Otherwise the first live row for the address decides: the answer is true exactly when its code equals the one given. False changes nothing. True deletes every row for the address and keeps every other row. |
| `EmailService.ReissueHoldsCode` | src/email/email.service.ts:45-56 | After `sendAuthCode` the live row for the address is exactly (address, code, now + 5 min). A row is added only when no live row existed; otherwise the live row is overwritten in place. |
| `EmailService.IssuedCodeIsAcceptedOnce` | src/email/email.service.ts:45-79 | A freshly issued code is accepted, and a second check with it throws the expiry error, because the record was consumed. |
| `EmailService.WrongCodeAllowsRetry` | src/email/email.service.ts:71-78 | A wrong code returns false and leaves the store unchanged, so the right code is still accepted afterwards. |
| `EmailService.IssuedCodeExpires` | src/email/email.service.ts:45-69 | Five minutes after issue, the right code is refused with the expiry error. |
| `EmailService.EmailService.SendAuthCode` | src/email/email.service.ts:37-59 | The store is updated by the reissue rule, the live row then holds the new code, and only after that is the mail sent. |
| `EmailService.EmailService.VerifyAuthCode` | src/email/email.service.ts:61-79 | Its outcome and the table it leaves are those of the check: no live row throws; a code equal to the first live row's returns true and deletes the address's rows; any other returns false and changes nothing. |
| `EmailService.EmailService.SendResetPasswordEmail` | src/email/email.service.ts:86-108 | A fresh code row is stored before the user is looked up, so it stays even when 'User not found' is thrown. A known user is mailed the reset link carrying the code. |
| `Users.Apply` | src/user/user.repository.ts:37 | An update never changes the id, login id, display name or admin flag of a row. |
| `Users.UpdateWhereId` | src/user/user.repository.ts:37 | It has as many rows as before. The row with the id gets the patch, and every other row stays. |
| `Users.EmptyPatchChangesNothing` | src/user/user.repository.ts:37 | An update that writes no column leaves the table as it was. |
| `Users.RowOf` | src/user/entity/user.entity.ts:12-75 | The stored row holds every supplied column as given, and `isVerified` is false unless the object says true (the column's default). |
| `Users.UserTable.Insert` | src/user/user.repository.ts:19-21 | It appends `RowOf` the supplied object under the next auto-increment id, and keeps ids and login ids unique. |
| `Users.UserTable.Update` | src/user/user.repository.ts:31-38 | The rows become `UpdateWhereId` of the old rows, and the table invariant is kept. |
| `Users.UserTable.Remove` | src/user/user.repository.ts:40-43 | The rows with the id are deleted, the others kept in order, and the table invariant is kept. |
| `Users.KeptRowsWellFormed` | src/user/user.repository.ts:40-43 | Deleting rows keeps ids and login ids unique, and ids below the next id. |
| `Users.UserTable.FindByEmail` | src/email/email.service.ts:87 | It finds a row exactly when some row has the address, and then a row with it. |
| `Users.UserTable.FindById` | src/user/user.repository.ts:27-29 | A row is found exactly when one has the id, and it is a row of the table with that id. |
| `Users.UserTable.FindByUserId` | src/user/user.service.ts:59-63 | A row is found exactly when one has the login id, and it is a row of the table with that login id. |
| `Users.UserTable.FindByDisplayName` | src/user/user.service.ts:75-82 | A row is found exactly when one has the display name, and it is a row of the table with that name. |
| `UserRules.GetByUserId` | src/user/user.service.ts:58-73 | An unknown login id is Unauthorized; otherwise the result is that user's row. |
| `UserRules.HashPassword` | src/user/user.service.ts:98-107 | A password shorter than 6 characters is refused with Unauthorized; otherwise the result is its bcrypt hash with cost 10. |
| `UserRules.ComparePassword` | src/user/user.service.ts:91-96 | bcrypt `compare` takes the plaintext first and the stored hash second, so a stored hash of the password compares true. |
| `UserRules.HashedPasswordVerifies` | src/user/user.service.ts:91-107 | A password that passes the length rule compares equal to the hash `hashPassword` made of it. |
| `UserRules.MaskUserId` | src/user/user.service.ts:133-143 | Ids of length at most 3 are returned unchanged. Longer ids keep their first two and last characters, with '*' everywhere in between. The length never changes. |
| `UserRules.MaskIdempotent` | src/user/user.service.ts:133-143 | Masking a masked id changes nothing. |
| `UserRules.MaskHidesMiddle` | src/user/user.service.ts:133-143 | Ids of the same length that agree on the shown characters mask to the same string. |
| `UserService.UserService.CreateUser` | src/user/user.service.ts:32-56 | A taken login id, then a taken display name, is a Conflict with nothing stored; a short password is Unauthorized with nothing stored. Otherwise one row is stored: the object as `RowOf` stores it, with the bcrypt hash in place of the password. The result is the token pair of that row. |
| `UserService.UserService.RegisterEmail` | src/user/user.service.ts:109-131 | With no live code record, or no such user, a message is returned and nothing changes. Otherwise the user gets the address and every code record for it is deleted. |
| `UserService.UserService.ResetChecks` | src/user/user.service.ts:160-167 | Unknown user is Unauthorized. A missing live record for the user's address, or a code that differs, is BadRequest. A short new password is Unauthorized. Otherwise the result is the user and the hash. |
| `UserService.ResetAsWrittenKeepsPassword` | src/user/user.service.ts:167-168 | The update payload line 168 passes, the hash string itself, changes no row. |
| `UserService.ResetPatchSetsPassword` | src/user/user.service.ts:167-168 | With the hash passed as `{ password }`, only the user's row changes, and only in its password. |
| `UserService.UserService.ResetPasswordAsWritten` | src/user/user.service.ts:160-172 | A failed check throws with nothing changed. Otherwise SUCCESS is returned and the code records are deleted, but every password stays as it was. |
| `UserService.UserService.ResetPassword` | src/user/user.service.ts:160-172 | A failed check throws with nothing changed. Otherwise the new hash is stored for the user, the code records are deleted, SUCCESS is returned, and `getByUserId` then gives the row with the new hash. |
| `UserService.FindUserByEmailAsWritten` | src/user/user.service.ts:145-154 | Every call throws a TypeError, since `findByCriteria` is not defined. |
| `UserService.FindUserByEmail` | src/user/user.service.ts:145-154 | The user with the address, or NotFound exactly when nobody has it. |
| `UserService.FindUserByEmailDiscrepancy` | src/user/user.service.ts:145-154 | A registered address is found by the intended lookup and is an error as written. |
| `AuthService.ValidateUser` | src/auth/auth.service.ts:28-46 | An unknown id propagates Unauthorized. A password mismatch is Unauthorized with the generic message. Success returns the row without password and admin flag. |
| `AuthService.PublicHidesSecrets` | src/auth/auth.service.ts:41-43 | The returned user does not depend on the password hash or the admin flag. |
| `AuthService.Login` | src/auth/auth.service.ts:72-89 | Both tokens carry the same claims `{userId, sub: id, isAdmin}`. The access token gives them back under `JWT_SECRET`, falling back to 'jwt_secret', when signing with `JWT_EXPIRATION_TIME` is accepted. The refresh token gives them back under `JWT_REFRESH_SECRET`, falling back to 'jwt_refresh_secret', when signing with `JWT_REFRESH_EXPIRATION_TIME` is accepted. |
| `AuthService.PasswordLoginHasNoAdminClaim` | src/auth/auth.controller.ts:35-43 | Tokens from a password login carry no `isAdmin` claim, whatever the row says. |
| `AuthService.Refresh` | src/auth/auth.service.ts:48-70 | A refresh token that does not verify is Unauthorized 'Invalid or expired refresh token'. It is verified under `JWT_REFRESH_SECRET`, or the module secret (`JWT_SECRET`, else 'secretKey') when that is unset. Otherwise the result is only a new access token, signed with the module secret and the same userId, sub and isAdmin. |
| `AuthService.RefreshAfterLogin` | src/auth/auth.service.ts:48-89 | With both secrets set, refreshing a fresh pair's refresh token gives the pair's access token back: the claims carry over unchanged. |
| `AuthService.AuthService.SendVerificationCode` | src/auth/auth.service.ts:168-179 | A fresh six-digit code is written to the user's row and saved, then mailed. For a missing row it throws and nothing changes. |
| `AuthService.ConfirmVerificationCodeAsWritten` | src/auth/auth.service.ts:181-205 | Every call, a matching code included, ends as InternalServerError, with nothing written. |
| `AuthService.AuthService.ConfirmVerificationCode` | src/auth/auth.service.ts:181-205 | A matching stored code marks the user verified and clears the code. Every failure is InternalServerError with nothing changed. |
| `AuthService.ConfirmPatchClearsCode` | src/auth/auth.service.ts:194-196 | After a confirmation the user's row is verified and holds no code, so the code cannot be confirmed again. |
| `AuthService.ConfirmAsWrittenRejectsMatch` | src/auth/auth.service.ts:190-204 | A stored, matching code is still refused as written. |
| `AuthGuard.BearerPiecesFacts` | src/auth/auth.guard.ts:32-33 | Splitting the header on ' ' gives 'Bearer' and more pieces exactly when the header starts with 'Bearer '. The second piece is then the run of characters after the prefix, up to the next space. |
| `AuthGuard.ExtractAccessToken` | src/auth/auth.guard.ts:26-34 | A missing or empty header gives nothing. Otherwise a token is returned exactly when the header starts with 'Bearer ', and it is the piece after the prefix. |
| `AuthGuard.BearerRoundTrip` | src/auth/auth.guard.ts:32-41 | The header the cookie copy writes gives the cookie's token back, when the token has no space. |
| `AuthGuard.GetRequest` | src/auth/auth.guard.ts:36-44 | A truthy `access_token` cookie overwrites the header with 'Bearer ' + cookie, and extraction then returns the cookie. Otherwise the header is unchanged. |
| `AuthGuard.HandleRequest` | src/auth/auth.guard.ts:46-51 | An error is rethrown. A missing user is Unauthorized. Otherwise the user is returned unchanged. |
| `AuthGuard.CanActivate` | src/auth/auth.guard.ts:10-24 | With no Bearer token in the incoming header it throws 'Access token is required.' before anything else. A request whose user is already an admin is admitted without verification. Otherwise the strategy verifies the token and stores its claims as the user, or the call is Unauthorized. |
| `Http.Request.Cookie` | src/auth/auth.guard.ts:38 | A cookie reads as present exactly when it is set and not empty. |
| `Http.TokenCookieLifetimes` | src/auth/auth.controller.ts:44-53 | The token cookies' `Max-Age` is 3600 and 604800 seconds (section 5.2.2 of RFC 6265). |
| `Http.Response.SetCookie` | src/auth/auth.controller.ts:44-48 | Exactly that cookie is written. |
| `Http.Response.ClearCookie` | src/auth/auth.controller.ts:64-66 | Exactly that cookie is cleared. |
| `Http.Response.Send` | src/auth/auth.controller.ts:55-57 | Status and body are set and the cookies stay. |
| `AuthController.AuthController.Login` | src/auth/auth.controller.ts:33-58 | A failed validation propagates its Unauthorized and writes nothing. Otherwise `access_token` (1 h) and `refresh_token` (7 d), both httpOnly, are set from the validated user's pair, and the answer is 200. |
| `AuthController.AuthController.Logout` | src/auth/auth.controller.ts:60-69 | `access_token` is cleared only when the request carries it; `refresh_token` is always cleared; 200. |
| `AuthController.AuthController.Refresh` | src/auth/auth.controller.ts:71-105 | With no refresh cookie, it clears that cookie and fails Unauthorized. On success only `access_token` is rewritten (1 h) and the token is echoed with 200. On failure `refresh_token` is cleared and the answer carries the error's status, 401. |
| `AuthController.RefreshFailureIs401` | src/auth/auth.controller.ts:98-104 | Every refusal of `refresh` has status 401. |
| `AuthController.AuthController.ConfirmCode` | src/auth/auth.controller.ts:152-180 | The store changes as `verifyAuthCode` changes it. A match answers 200 SUCCESS, a wrong code 400, and a thrown check BadRequest. No cookie is touched. |
| `UserController.CreateUserOf` | src/user/user.controller.ts:61-67 | The object handed to `createUser` is never an admin, whatever the body says. The profile is the upload's address when a file came. `email`, `verificationCode` and `isVerified` pass through from the body. |
| `UserController.SignUpCanVerifyEmail` | src/user/user.controller.ts:61-69 | A body with an address and `isVerified: true` stores a verified, non-admin row with that address, with no code checked. |
| `UserController.UserController.Create` | src/user/user.controller.ts:54-89 | Any refusal of `createUser` becomes InternalServerError with nothing stored or written. On success a non-admin row is stored with the body's other columns, both token cookies (1 h, 7 d) are set and the answer is 200. |
| `UserController.FindOne` | src/user/user.controller.ts:96-107 | The signed-in user's row without its password, or Unauthorized for an unknown login id. |
| `UserController.InfoOf` | src/user/user.controller.ts:104-106 | The reply is the row with only its password taken out: putting the password back gives the row. |
| `UserController.InfoHidesPassword` | src/user/user.controller.ts:104-106 | The `info` answer does not depend on the stored password. |
| `UserController.UserController.UpdatePassword` | src/user/user.controller.ts:130-151 | The new password goes through the 6-character policy. Its hash replaces the user's password, and both cookies are cleared. |
| `UserController.UserController.Remove` | src/user/user.controller.ts:179-193 | The signed-in user's row is deleted and both cookies are cleared. The delete is not awaited; see Left out. |
| `UserController.RemovedUserIsGone` | src/user/user.controller.ts:183-185 | Once the delete has landed, no row has the removed user's login id. |
| `UserController.UserController.Email` | src/user/user.controller.ts:35-52 | A message from `registerEmail` becomes a Conflict carrying it, with nothing changed. Otherwise the registration's effects hold and the answer is 200. |
| `UserController.GetUserIdAsWritten` | src/user/user.controller.ts:195-210 | Every call throws a TypeError, since `findByCriteria` is not defined. |
| `UserController.GetUserId` | src/user/user.controller.ts:195-210 | ERROR exactly when nobody has the address. Otherwise the masked login id of a user who has it, and no name. |
| `UserController.GetUserIdDiscrepancy` | src/user/user.controller.ts:195-210 | A registered address gets a masked id as intended, and a TypeError as written. |
| `Bookmarks.FindOrCreate` | src/bookmarks/bookmark.service.ts:23-26 | Afterwards the pair is present. The table is unchanged when the pair was there, and one row is appended otherwise. |
| `Bookmarks.DestroyFirst` | src/bookmarks/bookmark.service.ts:59-64 | With the pair absent nothing changes. Otherwise exactly one occurrence is removed (as multisets), and every other pair's presence is unchanged. |
| `Bookmarks.PostsOf` | src/bookmarks/bookmark.service.ts:29-39 | The post ids of exactly the user's rows, one per row. |
| `Bookmarks.UsersOf` | src/bookmarks/bookmark.service.ts:41-51 | The user ids of exactly the post's rows, one per row. |
| `Bookmarks.CreateIsIdempotent` | src/bookmarks/bookmark.service.ts:17-27 | Creating a bookmark twice is creating it once. |
| `Bookmarks.CreateKeepsNoDuplicates` | src/bookmarks/bookmark.service.ts:17-27 | Creating keeps every pair at most once in the table. |
| `Bookmarks.RemoveDropsPair` | src/bookmarks/bookmark.service.ts:53-65 | In a table without duplicates, removing deletes the pair altogether and keeps the table duplicate-free. |
| `Bookmarks.CreateThenRemove` | src/bookmarks/bookmark.service.ts:17-65 | `createBookmark(u, p)` followed by `removeBookmark(u, p)` leaves the pair absent. |
| `Bookmarks.CreateBookmarkBody` | src/bookmarks/bookmark.service.ts:17-27 | With both ids the pair is in the table afterwards, and a table without duplicate pairs stays so. A missing id is the ORM's undefined-where error with nothing changed. The body leaves the handle open. |
| `Bookmarks.RemoveBookmarkBody` | src/bookmarks/bookmark.service.ts:53-65 | With both ids exactly one occurrence of the pair is removed, if there was one. A missing id is the undefined-where error with nothing changed. The body leaves the handle open. |
| `Bookmarks.BookmarksService.CreateBookmark` | src/bookmarks/bookmark.service.ts:17-27 | In one fresh transaction the committed table becomes `FindOrCreate` of the pair, and the call succeeds. |
| `Bookmarks.BookmarksService.RemoveBookmark` | src/bookmarks/bookmark.service.ts:53-65 | In one fresh transaction the committed table becomes `DestroyFirst` of the pair, after which the pair is absent. |
| `Comments.OfPost` | src/comments/comments.service.ts:36-41 | Exactly the comments whose post is the given one. |
| `Comments.OfPostIsPerPost` | src/comments/comments.service.ts:36-41 | A comment is never listed under two posts. |
| `Comments.NewCommentIsListed` | src/comments/comments.service.ts:15-41 | A comment created under a post is listed last among that post's comments. |
| `Comments.CommentsService.CreateComment` | src/comments/comments.service.ts:15-34 | An unknown post is 'Post not found' with nothing created. Otherwise exactly one comment with the given userId, content and postId is appended. No post changes. |
| `Comments.CommentsService.GetCommentsByPost` | src/comments/comments.service.ts:36-41 | Exactly the stored comments of the post. |
| `Comments.CommentsService.RemoveAsWritten` | src/comments/comments.service.ts:43-47 | The delete runs on the posts table and the comments are unchanged. Under the model's reading of the filter as the posts' key, the post with that key is gone; on a real database the statement fails. |
| `Comments.CommentsService.Remove` | src/comments/comments.service.ts:43-47 | The comment with that id is deleted, and every other comment and every post stays. |
| `Comments.RemoveAsWrittenExample` | src/comments/comments.service.ts:43-47 | On a concrete table, removing comment 1 as written keeps the comment, and under the key reading deletes post 1, while the intended version deletes only the comment. |
| `Posts.Apply` | src/post/post.service.ts:30-34 | The key is kept, and each column in the payload overwrites the stored one. |
| `Posts.UpdateWhereKey` | src/post/post.service.ts:30-34 | Only the row with the key gets the payload; row count and order are kept. |
| `Posts.DestroyWhereKey` | src/post/post.service.ts:36-40 | Exactly the rows without the key remain. |
| `Posts.RowByKey` | src/post/post.service.ts:26-28 | A row is found exactly when one has the key, and it is that row. |
| `Posts.PostTable.FindByPk` | src/post/post.service.ts:26-28 | The post with the key, as `RowByKey` finds it in the current rows. |
| `Posts.UpdateKeepsKeys` | src/post/post.service.ts:30-34 | An update keeps keys unique, and the row with the key is then the old row with the payload applied. |
| `Posts.UpdateOfMissingKeyChangesNothing` | src/post/post.service.ts:30-34 | An update whose key matches no row changes nothing. |
| `Posts.DestroyedPostIsGone` | src/post/post.service.ts:36-40 | After the delete no row has the key, and keys stay unique. |
| `Posts.KeysOfKept` | src/post/post.service.ts:36-40 | The rows a delete keeps still have distinct keys below the next id. |
| `Posts.PostTable.Create` | src/post/post.service.ts:12-14 | One row with the next key is appended. |
| `Posts.PostTable.Update` | src/post/post.service.ts:30-34 | The rows become `UpdateWhereKey` of the old rows. |
| `Posts.PostTable.Destroy` | src/post/post.service.ts:36-40 | The rows become `DestroyWhereKey` of the old rows. |
| `PostController.KeptImages` | src/post/post.controller.ts:166-169 | A missing or empty `prevImage` keeps nothing. Otherwise the pieces contain no ',' and join back to `prevImage`. |
| `PostController.UpdatePatch` | src/post/post.controller.ts:151-172 | `prevImage` is not written. With files, `image` is the kept images followed by the uploads' addresses; without files, `image` is as the body has it. |
| `PostController.KeptImagesRoundTrip` | src/post/post.controller.ts:166-171 | The kept part of the written image list joins back to `prevImage`. |
| `PostController.MayChange` | src/post/post.controller.ts:141-149 | The gate passes only for a known login id, and for a non-admin only when the post exists and the caller wrote it. A known admin always passes. |
| `PostController.PostController.Create` | src/post/post.controller.ts:39-73 | The post is stored under the body's `userId` when it has one, else under the token's `sub`. Files replace `image` with their addresses. The answer is 201. |
| `PostController.PostController.FindOneAsWritten` | src/post/post.controller.ts:106-127 | A missing post answers 404. An existing one ends as InternalServerError. |
| `PostController.PostController.FindOne` | src/post/post.controller.ts:106-127 | A missing post answers 404, an existing one 200 with the post. |
| `PostController.PostController.Update` | src/post/post.controller.ts:129-182 | Unless the caller is a known user and is an admin or the author, the answer is 404 and nothing is written. Otherwise the merged payload is written and the answer is 200. An admin updating a missing post changes nothing. |
| `PostController.PostController.Remove` | src/post/post.controller.ts:203-228 | Unknown caller is Unauthorized. A missing post is NotFound. A caller who is neither admin nor author is Unauthorized. In each case nothing changes. Otherwise the post is deleted and the answer is 200. |
| `Youtube.PlaylistId` | src/youtube/youtube.service.ts:63 | 'UU' followed by the channel id without its first two characters. |
| `Youtube.PlaylistIdInjective` | src/youtube/youtube.service.ts:63 | Distinct 'UC' channel ids give distinct playlist ids. |
| `Youtube.ItemsOf` | src/youtube/youtube.service.ts:130-132 | Exactly the items of the channel. |
| `Youtube.Tag` | src/youtube/youtube.service.ts:90-93 | Each fetched video becomes one row of the channel, in order. |
| `Youtube.ReplaceItems` | src/youtube/youtube.service.ts:84-93 | Rows of other channels are kept as they were. Every row of the channel is a fetched video, and every fetched video is a row of the channel. |
| `Youtube.ReplaceItemsEffect` | src/youtube/youtube.service.ts:82-93 | Afterwards the channel holds exactly the fetched videos in fetch order, and every other channel holds what it held. |
| `Youtube.ReplaceItemsIdempotent` | src/youtube/youtube.service.ts:84-93 | Replacing twice with the same videos is replacing once. |
| `Youtube.Special` | src/youtube/youtube.service.ts:102-106 | Exactly the channels with a channel id, in table order. |
| `Youtube.General` | src/youtube/youtube.service.ts:108-113 | Exactly the channels without a channel id, as a permutation, sorted ascending by the key. |
| `Youtube.SpecialGeneralPartition` | src/youtube/youtube.service.ts:102-113 | Special and general channels together are all the channels, each once. |
| `Youtube.GetChannel` | src/youtube/youtube.service.ts:115-121 | The channel with the id, or NotFound 'Channel with ID ... not found' exactly when none has it. |
| `Youtube.GetPlaylist` | src/youtube/youtube.service.ts:123-133 | NotFound exactly when the channel is unknown; otherwise that channel's items. |
| `Youtube.RefreshAllKeepsOthers` | src/youtube/youtube.service.ts:45-58 | Refreshing other channels leaves a channel's items alone. |
| `Youtube.RefreshAllEffect` | src/youtube/youtube.service.ts:45-58 | After a refresh, each special channel holds exactly the videos of its uploads playlist. |
| `Youtube.RefreshAll` | src/youtube/youtube.service.ts:45-58 | Every row that was not there before belongs to one of the refreshed channels. |
| `Youtube.UpdatePlaylistItemsBody` | src/youtube/youtube.service.ts:76-100 | It succeeds exactly when both arguments are given and the channel exists; then the channel holds exactly the fetched videos, and the handle is committed by the body exactly when it commits itself. A failure leaves the items and the handle as they were. |
| `Youtube.YoutubeService.UpdatePlaylistItemsAsWritten` | src/youtube/youtube.service.ts:76-100 | An unknown channel is NotFound with nothing changed. Otherwise the replacement is committed, yet the call fails with the finished-transaction error. |
| `Youtube.YoutubeService.UpdatePlaylistItems` | src/youtube/youtube.service.ts:76-100 | An unknown channel is NotFound with nothing changed. Otherwise the replacement is committed in one transaction and the call succeeds. |
| `Youtube.YoutubeService.RefreshDataAsWritten` | src/youtube/youtube.service.ts:45-58 | Only the first special channel is refreshed; the call then fails. |
| `Youtube.YoutubeService.RefreshData` | src/youtube/youtube.service.ts:45-58 | Every special channel, once each and in the order read, has its items replaced by its playlist, with one committed transaction each. |

## Left out

- bcrypt and JWT are function values. What is proved about them holds
  under the stated hypotheses `Matches` (a password matches its own hash)
  and `Accepts` (a token signed with a secret and a lifetime verifies under
  that secret at the instant it was issued). The registered claims `iat` and `exp` (section
  4.1.4 of RFC 7519) are inside `sign` and `verify`.
- `JWT_EXPIRATION_TIME` and `JWT_REFRESH_EXPIRATION_TIME` are assumed set
  to valid positive spans; the lemmas about tokens take `Accepts` for the
  lifetime actually passed. With a variable unset, the call passes
  `expiresIn: undefined` over the module's '1h', and the signing library
  throws, so login and sign-up fail. With a zero or negative span the token
  is expired at issue. The model's `sign` is total and does not capture
  either.
- Mail transport is an `outbox` entry written after the store update.
  Subjects and HTML templates are reduced to the address and the code or
  link. Front-end addresses from the environment are left out.
- `Math.random()` is the parameter `draw`. `Date.now()` and `new Date()`
  are the parameter `now`.
- String lengths count characters, not UTF-16 code units.
- Korean messages are represented by English constants of the same
  meaning.
- The row lock of `getNextDocumentNumber` and concurrency in general are
  not modelled. Calls are sequential.
- The ORM transactions that `UserRepository.create`, `update` and `remove`
  open are not modelled: those writes are plain table updates.
- Update, delete and find-or-create failures raised by the database are
  not modelled, including a database error inside `updatePlaylistItems`'
  `try`, which the code swallows.
- The redirect to the login page in the auth controller's `refresh` is not
  modelled, nor is the console logging.
- The passport JWT strategy (jwt.strategy.ts) is not part of this model.
  Its verification is the `verify` parameter of
  `AuthGuard.CanActivate`.
- `Promise.all` upload order is not modelled. Uploaded files are given as
  the list of addresses the uploads produced, in completion order. The S3
  upload service is not part of this model.
- `post.service.ts` `update` and `remove`, and `comments.service.ts`
  `remove`, filter on `id`, which is not an attribute of the post table
  (its key is `postId`). The model reads the filter as the key. Against a
  real database these statements would fail instead.
- The post table's NOT NULL column constraints are not modelled. Non-key
  columns other than the author and the image list are kept by name in
  `fields`. Every body key goes into `fields`, so a key that is not a
  column of the post table is stored by the model, where the ORM's
  `create` and `update` would drop it.
- Post `create` does not await `getByUserId`. The model therefore has no
  Unauthorized branch there, and that promise's later rejection is not
  modelled.
- Post `remove` does not await the delete. The model deletes before
  answering 200.
- UserController.CreateUserOf: a client-sent `id` key is not carried.
  The source would store the row under that id (a taken id failing on the
  primary key, and PostgreSQL's sequence not moving past it). The model
  always assigns the next auto-increment id, so it does not capture a
  client choosing its own id, nor the token's `sub` that follows from it.
- Users.UserTable.Insert: takes no explicit `id`, for the same reason; the
  row always gets the next auto-increment id.
- UserController.UserController.UpdatePassword: `updatePassword` does not
  await the write. The model writes before answering 200 and clearing the
  cookies, so it does not capture an answer sent while the write is still
  pending.
- UserController.UserController.Remove: `remove` does not await the
  delete. The model deletes before answering 200 and clearing the cookies,
  so it does not capture an answer sent while the row is still there.
- Auto-increment ids of playlist items and the `createdAt` of rows are not
  modelled.
- The YouTube API fetch is the parameter `fetch` of
  `RefreshData`/`RefreshDataAsWritten`. `createChannel` and
  `updateChannel` are not modelled.
- `Youtube.General`: the database collation that orders names is the
  parameter `collation`. The order among channels with equal keys is not
  stated.
- `UserController.GetUserId`: `user.name` is not a column, so the reply's
  name is always absent.
- Routes outside the modelled core are not modelled: `sendCode`,
  `verifyEmail`, `checkPasswordValidation`, user `update`,
  `requestResetPasswordEmail`, `confirmResetPassword`, `findAll`,
  `prevDataUpload` and `getSitemapPosts`.

## Findings

| source | as written | input that shows it | evidently intended | confidence | as-written member | corrected member |
|---|---|---|---|---|---|---|
| src/auth/auth.service.ts:194-196 | A matching code goes on to call `userService.isVerified` and `clearVerificationCode`, which `UserService` does not define; the TypeError is caught as InternalServerError | a user whose stored code is "123456", confirming "123456" | the user is marked verified, the code is cleared, and SUCCESS is returned | high if built without type checking (tsc refuses the calls: mixed revisions?), not executed | `AuthService.ConfirmAsWrittenRejectsMatch` | `AuthService.AuthService.ConfirmVerificationCode` |
| src/user/user.service.ts:168 | `update(user.id, hashedPassword)` passes the hash string as the payload, so no column is written, yet SUCCESS is returned | a valid code and the new password "secret1" | the user's password column holds the new hash | high, not executed | `UserService.UserService.ResetPasswordAsWritten` | `UserService.UserService.ResetPassword` |
| src/comments/comments.service.ts:43-47 | `remove(id)` destroys from the post model, so the comment is never deleted. The posts table has no `id` column, so on a real database the statement fails; only under the model's reading of the filter as the posts' key does it delete a post | comment 1 under post 3; `remove(1)` | the comment with that id is deleted and no post is touched | high, not executed | `Comments.RemoveAsWrittenExample` | `Comments.CommentsService.Remove` |
| src/youtube/youtube.service.ts:95 | The decorated method commits its own handle; the decorator's commit then throws, and so does its rollback, so the call fails although the data is committed, and `refreshData` stops after the first special channel | two special channels | each call's replacement is committed once by the decorator, the call succeeds, and every special channel is refreshed | medium (depends on the ORM throwing on a finished transaction), not executed | `Youtube.YoutubeService.RefreshDataAsWritten` | `Youtube.YoutubeService.RefreshData` |
| src/user/user.service.ts:146 | `userRepository.findByCriteria` is not defined, so `findUserByEmail` always throws; `getUserId` (src/user/user.controller.ts:197) calls it too | a user registered with "a@b.c"; lookup of "a@b.c" | the user with that address, or NotFound | high if built without type checking (tsc refuses the call: mixed revisions?), not executed | `UserService.FindUserByEmailDiscrepancy` | `UserService.FindUserByEmail` |
| src/post/post.controller.ts:118 | `postService.findPrevAndNextPost` is not defined, so an existing post answers InternalServerError | any existing post id | 200 with the post | low (the controller calls other absent `PostService` members: mixed revisions?), not executed | `PostController.PostController.FindOneAsWritten` | `PostController.PostController.FindOne` |

=== FILE: auth_controller.dfy ===
/** `AuthController`: the effects of `login`, `logout`, `refresh` and
    `confirmCode` on the response's cookies, status and body. */
module AuthController {
  import opened Wrappers
  import opened Users
  import opened Crypto
  import opened Http
  import opened UserRules
  import Auth = AuthService
  import opened EmailService

  const RefreshTokenNotFound := "Refresh token not found"
  const RefreshedMessage := "Access Token refreshed successfully."
  /** Stands for the (Korean) message "the code you entered is wrong". */
  const WrongCode := "the code you entered is wrong"
  const Error := "ERROR"

  function SuccessBody(): map<string, string>
  {
    map["result" := "SUCCESS"]
  }

  /** The JSON body of an exception: its `response`. */
  function ErrorBody(f: Failure): map<string, string>
  {
    map["result" := Error, "message" := f.message]
  }

  class AuthController {
    const users: UserTable
    const emailService: EmailService
    const hasher: Hasher
    const jwt: Jwt
    const env: Env
    /** `NODE_ENV === 'production'`. */
    const production: bool

    constructor (users: UserTable, emailService: EmailService, hasher: Hasher, jwt: Jwt, env: Env, production: bool)
      ensures this.users == users && this.emailService == emailService
      ensures this.hasher == hasher && this.jwt == jwt && this.env == env && this.production == production
    {
      this.users := users;
      this.emailService := emailService;
      this.hasher := hasher;
      this.jwt := jwt;
      this.env := env;
      this.production := production;
    }

    /** `login(loginUserDto, res)`: a failed `validateUser` propagates its
        Unauthorized and writes nothing; otherwise both token cookies are set
        (httpOnly, one hour and seven days) from a token pair for the
        validated user, whose claims carry no `isAdmin`. */
    method Login(userId: string, password: string, res: Response, now: int) returns (r: Result<()>)
      modifies res
      ensures Auth.ValidateUser(users, hasher, userId, password).Err? ==>
                r == Err(Auth.ValidateUser(users, hasher, userId, password).error) && unchanged(res)
      ensures Auth.ValidateUser(users, hasher, userId, password).Ok? ==>
                var t := Auth.Login(jwt, env, Auth.SubjectOfPublic(Auth.ValidateUser(users, hasher, userId, password).value), now);
                && r == Ok(())
                && res.jar == old(res.jar)[AccessTokenCookie := Set(t.accessToken, TokenCookie(AccessMaxAgeMs, production))]
                                         [RefreshTokenCookie := Set(t.refreshToken, TokenCookie(RefreshMaxAgeMs, production))]
                && res.status == Some(200)
    {
      var user := Auth.ValidateUser(users, hasher, userId, password);
      if user.Err? {
        r := Err(user.error);
        return;
      }
      var token := Auth.Login(jwt, env, Auth.SubjectOfPublic(user.value), now);
      res.SetCookie(AccessTokenCookie, token.accessToken, TokenCookie(AccessMaxAgeMs, production));
      res.SetCookie(RefreshTokenCookie, token.refreshToken, TokenCookie(RefreshMaxAgeMs, production));
      res.Send(200, map["result" := "SUCCESS", "message" := "login successful"]);
      r := Ok(());
    }

    /** `logout(req, res)`: the access-token cookie is cleared only when the
        request carries one; the refresh-token cookie always is. */
    method Logout(req: Request, res: Response)
      modifies res
      ensures req.Cookie(AccessTokenCookie).Some? ==>
                res.jar == old(res.jar)[AccessTokenCookie := Cleared][RefreshTokenCookie := Cleared]
      ensures req.Cookie(AccessTokenCookie).None? ==>
                res.jar == old(res.jar)[RefreshTokenCookie := Cleared]
      ensures res.status == Some(200) && res.body == SuccessBody()
    {
      if req.Cookie(AccessTokenCookie).Some? {
        res.ClearCookie(AccessTokenCookie);
      }
      res.ClearCookie(RefreshTokenCookie);
      res.Send(200, SuccessBody());
    }

    /** `refresh(req, res)`: with no refresh-token cookie, that cookie is
        cleared and Unauthorized `T003` is thrown (after a redirect to the
        login page, not modelled); a refresh token that `refresh` accepts
        rewrites the access-token cookie only and echoes the token in the
        body; one it refuses (always an Unauthorized, status 401) clears the
        refresh-token cookie and answers with the error's status and body. */
    method Refresh(req: Request, res: Response, now: int) returns (r: Result<()>)
      modifies res
      ensures req.Cookie(RefreshTokenCookie).None? ==>
                && r == Err(Unauthorized(RefreshTokenNotFound))
                && res.jar == old(res.jar)[RefreshTokenCookie := Cleared]
                && res.status == old(res.status) && res.body == old(res.body)
      ensures req.Cookie(RefreshTokenCookie).Some? ==>
                var refreshed := Auth.Refresh(jwt, env, req.cookies[RefreshTokenCookie], now);
                && r == Ok(())
                && (refreshed.Ok? ==>
                      && res.jar == old(res.jar)[AccessTokenCookie := Set(refreshed.value, TokenCookie(AccessMaxAgeMs, production))]
                      && res.status == Some(200)
                      && res.body == map["message" := RefreshedMessage, "access_token" := refreshed.value])
                && (refreshed.Err? ==>
                      && res.jar == old(res.jar)[RefreshTokenCookie := Cleared]
                      && res.status == Some(401)
                      && res.body == ErrorBody(refreshed.error))
    {
      var refreshToken := req.Cookie(RefreshTokenCookie);
      if refreshToken.None? {
        res.ClearCookie(RefreshTokenCookie);
        r := Err(Unauthorized(RefreshTokenNotFound));
        return;
      }
      var accessToken := Auth.Refresh(jwt, env, refreshToken.value, now);
      if accessToken.Ok? {
        res.SetCookie(AccessTokenCookie, accessToken.value, TokenCookie(AccessMaxAgeMs, production));
        res.Send(200, map["message" := RefreshedMessage, "access_token" := accessToken.value]);
      } else {
        var err := accessToken.error;
        if err.Status() == Some(401) {
          res.ClearCookie(RefreshTokenCookie);
        }
        res.Send(err.Status().GetOr(500), ErrorBody(err));
      }
      r := Ok(());
    }

    /** `confirmCode(email, verificationCode, res)`: a matching code answers
        200 SUCCESS, a wrong one 400; when `verifyAuthCode` throws (no live
        code) a BadRequest is thrown. No cookie is touched. */
    method ConfirmCode(email: string, verificationCode: string, res: Response, now: int) returns (r: Result<()>)
      modifies res, emailService.table
      ensures res.jar == old(res.jar)
      ensures var checked := Check(old(emailService.table.rows), email, verificationCode, now);
              && emailService.table.rows == checked.rows
              && (checked.outcome == Ok(true) ==> r == Ok(()) && res.status == Some(200) && res.body == SuccessBody())
              && (checked.outcome == Ok(false) ==>
                    r == Ok(()) && res.status == Some(400) && res.body == map["result" := Error, "message" := WrongCode])
              && (checked.outcome.Err? ==> r == Err(BadRequest(Error)) && res.status == old(res.status))
    {
      var result := emailService.VerifyAuthCode(email, verificationCode, now);
      if result.Err? {
        r := Err(BadRequest(Error));
        return;
      }
      if result.value {
        res.Send(200, SuccessBody());
      } else {
        res.Send(400, map["result" := Error, "message" := WrongCode]);
      }
      r := Ok(());
    }
  }

  /** Every refusal of `refresh` is an Unauthorized, so a failed refresh
      always answers 401 and clears the refresh-token cookie. */
  lemma RefreshFailureIs401(jwt: Jwt, env: Env, token: string, now: int)
    requires Auth.Refresh(jwt, env, token, now).Err?
    ensures Auth.Refresh(jwt, env, token, now).error.Status() == Some(401)
  {
  }
}

=== FILE: auth_guard.dfy ===
/** `AuthGuard`: the JWT guard on protected routes. It reads a Bearer token
    (section 2.1 of RFC 6750) from the authorization header, lets through a
    request whose user is already an admin, and otherwise defers to the
    passport JWT strategy, which first copies the `access_token` cookie into
    the header. */
module AuthGuard {
  import opened Wrappers
  import opened Strings
  import opened Crypto
  import opened Http

  const BearerPrefix := "Bearer "
  const TokenRequired := "Access token is required."
  /** The message of a bare `UnauthorizedException`. */
  const UnauthorizedMessage := "Unauthorized"

  /** A header starting with `Bearer ` splits into `Bearer` and more. */
  lemma BearerPiecesBack(h: string)
    requires |h| >= 7 && h[..7] == BearerPrefix
    ensures Split(h, ' ')[0] == "Bearer" && |Split(h, ' ')| >= 2
  {
    assert h == "Bearer" + [' '] + h[7..];
    SplitPrefix("Bearer", ' ', h[7..]);
  }

  /** When the first piece is `Bearer` and a second exists, the header starts
      with `Bearer ` and the second piece is the run of characters after the
      prefix up to the next space or the end. */
  lemma BearerPiecesForth(h: string)
    requires Split(h, ' ')[0] == "Bearer" && |Split(h, ' ')| >= 2
    ensures |h| >= 7 && h[..7] == BearerPrefix
    ensures var t := Split(h, ' ')[1];
            && ' ' !in t && 7 + |t| <= |h| && h[7..7 + |t|] == t
            && (|h| == 7 + |t| || h[7 + |t|] == ' ')
  {
    var p := Split(h, ' ');
    JoinHead(p, ' ');
    var rest := h[7..];
    assert rest == Join(p[1..], ' ');
    JoinHead(p[1..], ' ');
    assert h[7..7 + |p[1]|] == rest[..|p[1]|];
  }

  /** Both directions together: the header splits into `Bearer` and more
      exactly when it starts with `Bearer `, and the second piece is then the
      token that follows the prefix. */
  lemma BearerPiecesFacts(h: string)
    ensures var p := Split(h, ' ');
            (p[0] == "Bearer" && |p| >= 2) <==> (|h| >= 7 && h[..7] == BearerPrefix)
    ensures var p := Split(h, ' ');
            p[0] == "Bearer" && |p| >= 2 ==>
              var t := p[1];
              && ' ' !in t && 7 + |t| <= |h| && h[7..7 + |t|] == t
              && (|h| == 7 + |t| || h[7 + |t|] == ' ')
  {
    var p := Split(h, ' ');
    if p[0] == "Bearer" && |p| >= 2 {
      BearerPiecesForth(h);
    }
    if |h| >= 7 && h[..7] == BearerPrefix {
      BearerPiecesBack(h);
    }
  }

  /** `extractAccessToken(request)`: no header (or an empty one) gives
      nothing; otherwise the header is split on ' ' and the second piece is
      the token when the first is exactly `Bearer`. */
  function ExtractAccessToken(authorization: Option<string>): (r: Option<string>)
    ensures authorization.None? || authorization.value == "" ==> r.None?
    ensures authorization.Some? ==>
              (r.Some? <==> |authorization.value| >= 7 && authorization.value[..7] == BearerPrefix)
    ensures r.Some? ==>
              var h := authorization.value;
              var t := r.value;
              && ' ' !in t && 7 + |t| <= |h| && h[7..7 + |t|] == t
              && (|h| == 7 + |t| || h[7 + |t|] == ' ')
  {
    if authorization.None? || authorization.value == "" then None
    else
      var pieces := Split(authorization.value, ' ');
      BearerPiecesFacts(authorization.value);
      if pieces[0] == "Bearer" && |pieces| >= 2 then Some(pieces[1]) else None
  }

  /** Round trip: the header the cookie copy writes gives the cookie's token
      back, provided the token has no space in it. */
  lemma BearerRoundTrip(t: string)
    requires ' ' !in t
    ensures ExtractAccessToken(Some(BearerPrefix + t)) == Some(t)
  {
    var h := BearerPrefix + t;
    assert h[..7] == BearerPrefix;
    var u := ExtractAccessToken(Some(h)).value;
    assert h[7..7 + |u|] == t[..|u|];
  }

  /** `getRequest(context)`: a truthy `access_token` cookie overwrites the
      authorization header with `Bearer <cookie>`; otherwise the request is
      left as it is. */
  method GetRequest(req: Request)
    modifies req
    ensures req.user == old(req.user)
    ensures req.Cookie(AccessTokenCookie).None? ==> req.authorization == old(req.authorization)
    ensures req.Cookie(AccessTokenCookie).Some? ==>
              && req.authorization == Some(BearerPrefix + req.cookies[AccessTokenCookie])
              && (' ' !in req.cookies[AccessTokenCookie] ==>
                    ExtractAccessToken(req.authorization) == Some(req.cookies[AccessTokenCookie]))
  {
    var accessToken := req.Cookie(AccessTokenCookie);
    if accessToken.Some? {
      req.authorization := Some(BearerPrefix + accessToken.value);
      if ' ' !in accessToken.value {
        BearerRoundTrip(accessToken.value);
      }
    }
  }

  /** `handleRequest(err, user)`: an error is rethrown, a missing user is
      Unauthorized, and a user is passed on unchanged. */
  function HandleRequest(err: Option<Failure>, user: Option<Claims>): (r: Result<Claims>)
    ensures r.Ok? <==> err.None? && user.Some?
    ensures r.Ok? ==> r.value == user.value
    ensures err.Some? ==> r == Err(err.value)
    ensures err.None? && user.None? ==> r == Err(Unauthorized(UnauthorizedMessage))
  {
    if err.Some? then Err(err.value)
    else if user.None? then Err(Unauthorized(UnauthorizedMessage))
    else Ok(user.value)
  }

  /** A token JavaScript reads as true: present and not empty. */
  predicate Truthy(token: Option<string>)
  {
    token.Some? && token.value != ""
  }

  /** `canActivate(context)`. The token is looked for in the header as it
      arrived, before `getRequest` has copied the cookie, so a request that
      carries its token only in the cookie is refused. A request whose user
      is already an admin is let through without verification. Otherwise
      the passport strategy runs: `getRequest`, extraction from the header,
      `verify` (the strategy's check of the token), `handleRequest`, and on
      success the claims become `req.user`. The strategy's rejection is
      asynchronous, so the surrounding `catch` never sees it and the error
      of `handleRequest` is what the caller gets. */
  method CanActivate(req: Request, verify: string -> Option<Claims>) returns (r: Result<bool>)
    modifies req
    ensures !Truthy(old(ExtractAccessToken(req.authorization))) ==>
              r == Err(Unauthorized(TokenRequired)) && unchanged(req)
    ensures Truthy(old(ExtractAccessToken(req.authorization))) && old(req.user).Some? && old(req.user).value.isAdmin == Some(true) ==>
              r == Ok(true) && unchanged(req)
    ensures Truthy(old(ExtractAccessToken(req.authorization))) && !(old(req.user).Some? && old(req.user).value.isAdmin == Some(true)) ==>
              && (req.Cookie(AccessTokenCookie).Some? ==> req.authorization == Some(BearerPrefix + req.cookies[AccessTokenCookie]))
              && (req.Cookie(AccessTokenCookie).None? ==> req.authorization == old(req.authorization))
              && var presented := ExtractAccessToken(req.authorization);
                 var claims := if Truthy(presented) then verify(presented.value) else None;
                 && (r.Ok? <==> claims.Some?)
                 && (r.Ok? ==> r == Ok(true) && req.user == claims)
                 && (r.Err? ==> r == Err(Unauthorized(UnauthorizedMessage)) && req.user == old(req.user))
  {
    var accessToken := ExtractAccessToken(req.authorization);
    var user := req.user;
    if !Truthy(accessToken) {
      r := Err(Unauthorized(TokenRequired));
      return;
    }
    if user.Some? && user.value.isAdmin == Some(true) {
      r := Ok(true);
      return;
    }
    // the passport strategy behind `super.canActivate(context)`
    GetRequest(req);
    var presented := ExtractAccessToken(req.authorization);
    var claims := if Truthy(presented) then verify(presented.value) else None;
    var handled := HandleRequest(None, claims);
    if handled.Err? {
      r := Err(handled.error);
      return;
    }
    req.user := Some(handled.value);
    r := Ok(true);
  }
}

=== FILE: auth_service.dfy ===
/** `AuthService`: password validation, the access/refresh token pair,
    token refresh, and the verification code kept on the user row. */
module AuthService {
  import opened Wrappers
  import opened Strings
  import opened Users
  import opened Crypto
  import opened UserRules
  import opened EmailService

  /** Stands for the (Korean) message "wrong id or password". */
  const WrongCredentials := "wrong id or password"
  const InvalidRefreshToken := "Invalid or expired refresh token"
  /** Stands for the (Korean) message "no stored verification code". */
  const NoSavedCode := "no stored verification code"
  /** Stands for the (Korean) message "verification code does not match". */
  const CodeMismatch := "verification code does not match"
  /** Stands for the (Korean) message "error while confirming the code". */
  const ConfirmFailed := "error while confirming the verification code"
  /** Stands for the (Korean) message "the code was confirmed". */
  const CodeConfirmed := "verification code confirmed"

  /** A user row as `validateUser` returns it: everything but `password` and
      `isAdmin`. */
  datatype PublicUser = PublicUser(
    id: nat,
    userId: string,
    displayName: string,
    profile: Option<string>,
    email: Option<string>,
    verificationCode: Option<string>,
    isVerified: bool)

  function Public(u: User): (p: PublicUser)
  {
    PublicUser(u.id, u.userId, u.displayName, u.profile, u.email, u.verificationCode, u.isVerified)
  }

  /** The public view of a user reveals neither the password hash nor the
      admin flag: rows differing only in those give the same view. */
  lemma PublicHidesSecrets(u: User, password: string, isAdmin: bool)
    ensures Public(u.(password := password, isAdmin := isAdmin)) == Public(u)
  {
  }

  /** `validateUser({ userId, password })`. */
  function ValidateUser(users: UserTable, h: Hasher, userId: string, password: string): (r: Result<PublicUser>)
    reads users
    ensures GetByUserId(users, userId).Err? ==> r == Err(Unauthorized(NoAccess))
    ensures GetByUserId(users, userId).Ok? ==>
              var u := GetByUserId(users, userId).value;
              && (r.Ok? <==> ComparePassword(h, u.password, password))
              && (r.Ok? ==> r.value == Public(u))
              && (r.Err? ==> r.error == Unauthorized(WrongCredentials))
  {
    match GetByUserId(users, userId)
    case Err(e) => Err(e)
    case Ok(u) =>
      if !ComparePassword(h, u.password, password) then Err(Unauthorized(WrongCredentials))
      else Ok(Public(u))
  }

  /** What `login(user)` reads from its argument. `isAdmin` is absent when the
      argument came from `validateUser`, which removed it. */
  datatype Subject = Subject(userId: string, id: nat, isAdmin: Option<bool>)

  function SubjectOfRow(u: User): Subject
  {
    Subject(u.userId, u.id, Some(u.isAdmin))
  }

  function SubjectOfPublic(p: PublicUser): Subject
  {
    Subject(p.userId, p.id, None)
  }

  function ClaimsOf(s: Subject): Claims
  {
    Claims(s.userId, s.id, s.isAdmin)
  }

  function AccessOptions(env: Env): SignOptions
  {
    SignOptions(Some(OrElse(env.jwtSecret, "jwt_secret")), env.jwtExpirationTime)
  }

  function RefreshOptions(env: Env): SignOptions
  {
    SignOptions(Some(OrElse(env.jwtRefreshSecret, "jwt_refresh_secret")), env.jwtRefreshExpirationTime)
  }

  datatype TokenPair = TokenPair(accessToken: string, refreshToken: string)

  /** `login(user)`: one claims object `{ userId, sub: id, isAdmin }`, signed
      once with the access secret and once with the refresh secret. Each
      token gives those claims back under its own secret (the fallbacks
      applying when a variable is unset or empty). */
  function Login(jwt: Jwt, env: Env, s: Subject, now: int): (t: TokenPair)
    ensures Accepts(jwt, OrElse(env.jwtSecret, "jwt_secret"), env.jwtExpirationTime) ==>
              jwt.verify(t.accessToken, Some(OrElse(env.jwtSecret, "jwt_secret")), now) == Some(Claims(s.userId, s.id, s.isAdmin))
    ensures Accepts(jwt, OrElse(env.jwtRefreshSecret, "jwt_refresh_secret"), env.jwtRefreshExpirationTime) ==>
              jwt.verify(t.refreshToken, Some(OrElse(env.jwtRefreshSecret, "jwt_refresh_secret")), now) == Some(Claims(s.userId, s.id, s.isAdmin))
  {
    var payload := ClaimsOf(s);
    TokenPair(jwt.sign(payload, AccessOptions(env), now), jwt.sign(payload, RefreshOptions(env), now))
  }

  /** Tokens from a password login carry no admin claim, whatever the row's
      `isAdmin` column says. */
  lemma PasswordLoginHasNoAdminClaim(users: UserTable, h: Hasher, jwt: Jwt, env: Env, userId: string, password: string, now: int)
    requires ValidateUser(users, h, userId, password).Ok?
    requires Accepts(jwt, OrElse(env.jwtSecret, "jwt_secret"), env.jwtExpirationTime)
    ensures var p := ValidateUser(users, h, userId, password).value;
            var access := Login(jwt, env, SubjectOfPublic(p), now).accessToken;
            && jwt.verify(access, Some(OrElse(env.jwtSecret, "jwt_secret")), now).Some?
            && jwt.verify(access, Some(OrElse(env.jwtSecret, "jwt_secret")), now).value.isAdmin.None?
  {
    var p := ValidateUser(users, h, userId, password).value;
    var c := ClaimsOf(SubjectOfPublic(p));
    assert jwt.verify(jwt.sign(c, AccessOptions(env), now), Some(OrElse(env.jwtSecret, "jwt_secret")), now) == Some(c);
  }

  /** The secret the JWT module was registered with, which `sign` and
      `verify` use when a call names no secret (or an empty one):
      `JWT_SECRET`, falling back to 'secretKey'. */
  function ModuleSecret(env: Env): string
  {
    OrElse(env.jwtSecret, "secretKey")
  }

  /** `refresh(refreshToken)`: verified with `JWT_REFRESH_SECRET`, or the
      module secret when that is unset; on success a new access token signed
      with `JWT_SECRET`, or the module secret, from the same three claims;
      the refresh token itself is never reissued. Any failure is
      Unauthorized. */
  function Refresh(jwt: Jwt, env: Env, refreshToken: string, now: int): (r: Result<string>)
    ensures var verified := jwt.verify(refreshToken, Some(OrElse(env.jwtRefreshSecret, ModuleSecret(env))), now);
            && (verified.None? ==> r == Err(Unauthorized(InvalidRefreshToken)))
            && (verified.Some? ==>
                  var c := verified.value;
                  r == Ok(jwt.sign(Claims(c.userId, c.sub, c.isAdmin), SignOptions(Some(ModuleSecret(env)), env.jwtExpirationTime), now)))
  {
    match jwt.verify(refreshToken, Some(OrElse(env.jwtRefreshSecret, ModuleSecret(env))), now)
    case None => Err(Unauthorized(InvalidRefreshToken))
    case Some(payload) =>
      Ok(jwt.sign(Claims(payload.userId, payload.sub, payload.isAdmin), SignOptions(Some(ModuleSecret(env)), env.jwtExpirationTime), now))
  }

  /** With both secrets set, refreshing the refresh token of a pair at the
      instant it was issued gives back the pair's access token: the claims
      carry over unchanged. */
  lemma RefreshAfterLogin(jwt: Jwt, env: Env, s: Subject, now: int)
    requires env.jwtSecret.Some? && env.jwtSecret.value != ""
    requires env.jwtRefreshSecret.Some? && env.jwtRefreshSecret.value != ""
    requires Accepts(jwt, env.jwtRefreshSecret.value, env.jwtRefreshExpirationTime)
    ensures Refresh(jwt, env, Login(jwt, env, s, now).refreshToken, now) == Ok(Login(jwt, env, s, now).accessToken)
  {
    var c := ClaimsOf(s);
    assert jwt.verify(jwt.sign(c, RefreshOptions(env), now), Some(env.jwtRefreshSecret.value), now) == Some(c);
  }

  /** The mail carrying a verification code; the subject and text are left
      out. */
  datatype CodeMail = CodeMail(to: Option<string>, code: string)

  /** The column update that confirming a code is meant to make: the user is
      verified and the stored code is cleared. */
  const ConfirmPatch := UserPatch(None, None, Some(None), Some(true))

  /** `confirmVerificationCode(code, userId)` as written: the failures throw
      BadRequest, and a matching code goes on to call `isVerified` and
      `clearVerificationCode` on `UserService`, which defines neither, so
      the call throws a TypeError; the catch block turns every one of these
      into InternalServerError. Nothing is written. */
  function ConfirmVerificationCodeAsWritten(users: UserTable, code: string, id: nat): (r: Result<string>)
    reads users
    ensures r == Err(InternalServerError(ConfirmFailed))
  {
    match users.FindById(id)
    case None =>
      // reading `verificationCode` of a missing row: a TypeError, caught
      Err(InternalServerError(ConfirmFailed))
    case Some(u) =>
      // no stored code or a different one (BadRequest), or a match reaching
      // the missing `isVerified` (TypeError): caught in every case
      Err(InternalServerError(ConfirmFailed))
  }

  class AuthService {
    const users: UserTable
    var outbox: seq<CodeMail>

    constructor (users: UserTable)
      ensures this.users == users && outbox == []
    {
      this.users := users;
      outbox := [];
    }

    /** `sendVerificationCode(id)`: a fresh six-digit code (drawn by
        `generateVerificationCode`, the same expression as the e-mail
        service's `generateAuthCode`) is written to the
        row and saved, then mailed to the row's address. With no such row the
        assignment to it throws a TypeError and nothing changes. */
    method SendVerificationCode(id: nat, draw: nat) returns (r: Result<()>)
      requires draw < 900000
      requires users.Valid()
      modifies this, users
      ensures users.Valid()
      ensures old(users.FindById(id)).None? ==>
                r == Err(PlainError(TypeErrorMessage)) && users.rows == old(users.rows) && outbox == old(outbox)
      ensures old(users.FindById(id)).Some? ==>
                && r == Ok(())
                && users.rows == UpdateWhereId(old(users.rows), id, UserPatch(None, None, Some(Some(GenerateAuthCode(draw))), None))
                && outbox == old(outbox) + [CodeMail(old(users.FindById(id)).value.email, GenerateAuthCode(draw))]
    {
      var user := users.FindById(id);
      var verificationCode := GenerateAuthCode(draw);
      if user.None? {
        r := Err(PlainError(TypeErrorMessage));
        return;
      }
      users.Update(id, UserPatch(None, None, Some(Some(verificationCode)), None));
      outbox := outbox + [CodeMail(user.value.email, verificationCode)];
      r := Ok(());
    }

    /** `confirmVerificationCode(code, id)` as evidently intended: a matching
        stored code marks the user verified and clears the code; every
        failure, a missing user included, is InternalServerError and changes
        nothing. */
    method ConfirmVerificationCode(code: string, id: nat) returns (r: Result<string>)
      requires users.Valid()
      modifies users
      ensures users.Valid()
      ensures var u := old(users.FindById(id));
              if u.Some? && u.value.verificationCode == Some(code) && code != "" then
                r == Ok(CodeConfirmed) && users.rows == UpdateWhereId(old(users.rows), id, ConfirmPatch)
              else
                r == Err(InternalServerError(ConfirmFailed)) && users.rows == old(users.rows)
    {
      var user := users.FindById(id);
      if user.None? {
        r := Err(InternalServerError(ConfirmFailed));
        return;
      }
      var savedCode := user.value.verificationCode;
      if savedCode.None? || savedCode.value == "" || savedCode.value != code {
        r := Err(InternalServerError(ConfirmFailed));
        return;
      }
      users.Update(id, ConfirmPatch);
      r := Ok(CodeConfirmed);
    }
  }

  /** After a confirmation the user's row is verified and holds no code, so
      the same code cannot be confirmed twice. */
  lemma {:induction false} ConfirmPatchClearsCode(rows: seq<User>, id: nat)
    ensures forall i :: 0 <= i < |rows| && rows[i].id == id ==>
              UpdateWhereId(rows, id, ConfirmPatch)[i].isVerified
              && UpdateWhereId(rows, id, ConfirmPatch)[i].verificationCode.None?
  {
  }

  /** Confirming a code that matches still fails as written, where the
      evidently intended version succeeds. */
  lemma ConfirmAsWrittenRejectsMatch(users: UserTable, u: User)
    requires u in users.rows && u.verificationCode.Some? && u.verificationCode.value != ""
    ensures ConfirmVerificationCodeAsWritten(users, u.verificationCode.value, u.id).Err?
  {
  }
}

=== FILE: bookmarks.dfy ===
/** `BookmarksService`: the Bookmarks table of (userId, postId) pairs.
    `createBookmark` and `removeBookmark` are `@Transaction()` methods; the
    two look-ups project the table onto post ids and user ids. */
module Bookmarks {
  import opened Wrappers
  import opened Tables
  import opened Transaction

  datatype Bookmark = Bookmark(userId: int, postId: int)

  /** The message the ORM throws for a `where` whose value is undefined. */
  const UndefinedWhere := "WHERE parameter has invalid \"undefined\" value"

  /** `findOrCreate({ where: b })`: the table is left alone when the pair is
      there, and the pair is appended otherwise. */
  function FindOrCreate(rows: seq<Bookmark>, b: Bookmark): (r: seq<Bookmark>)
    ensures b in r
    ensures b in rows ==> r == rows
    ensures b !in rows ==> r == rows + [b]
  {
    if b in rows then rows else rows + [b]
  }

  /** `findOne({ where: b })` followed by `destroy()` on the row found: the
      first row equal to `b` is deleted, and nothing when there is none. */
  function DestroyFirst(rows: seq<Bookmark>, b: Bookmark): (r: seq<Bookmark>)
    ensures b !in rows ==> r == rows
    ensures b in rows ==> |r| == |rows| - 1 && multiset(r) == multiset(rows) - multiset{b}
    ensures forall c :: c != b ==> (c in r <==> c in rows)
  {
    if rows == [] then []
    else
      assert rows == [rows[0]] + rows[1..];
      if rows[0] == b then rows[1..]
      else [rows[0]] + DestroyFirst(rows[1..], b)
  }

  /** `getBookmarksByUser(userId)`: the post ids of the rows of that user, in
      table order. */
  function PostsOf(rows: seq<Bookmark>, userId: int): (r: seq<int>)
    ensures forall p :: p in r <==> Bookmark(userId, p) in rows
    ensures |r| == |Filter(rows, (b: Bookmark) => b.userId == userId)|
  {
    if rows == [] then []
    else if rows[0].userId == userId then [rows[0].postId] + PostsOf(rows[1..], userId)
    else PostsOf(rows[1..], userId)
  }

  /** `getBookmarksByPost(postId)`: the user ids of the rows for that post,
      in table order. */
  function UsersOf(rows: seq<Bookmark>, postId: int): (r: seq<int>)
    ensures forall u :: u in r <==> Bookmark(u, postId) in rows
    ensures |r| == |Filter(rows, (b: Bookmark) => b.postId == postId)|
  {
    if rows == [] then []
    else if rows[0].postId == postId then [rows[0].userId] + UsersOf(rows[1..], postId)
    else UsersOf(rows[1..], postId)
  }

  /** The body of `createBookmark(userId, postId, transaction)` run under the
      handle the decorator appends: `findOrCreate` on the handle's view. */
  function CreateBookmarkBody(args: seq<Arg<int>>, rows: seq<Bookmark>): (r: Step<seq<Bookmark>, ()>)
    ensures r.closed.None?
    ensures r.outcome.Ok? <==> |args| >= 2 && args[0].Value? && args[1].Value?
    ensures r.outcome.Ok? ==> Bookmark(args[0].value, args[1].value) in r.after
    ensures r.outcome.Err? ==> r.after == rows && r.outcome.error == PlainError(UndefinedWhere)
    ensures NoDuplicates(rows) ==> NoDuplicates(r.after)
  {
    if |args| >= 2 && args[0].Value? && args[1].Value?
    then Step(FindOrCreate(rows, Bookmark(args[0].value, args[1].value)), None, Ok(()))
    else Step(rows, None, Err(PlainError(UndefinedWhere)))
  }

  /** The body of `removeBookmark(userId, postId, transaction)`. */
  function RemoveBookmarkBody(args: seq<Arg<int>>, rows: seq<Bookmark>): (r: Step<seq<Bookmark>, ()>)
    ensures r.closed.None?
    ensures r.outcome.Ok? <==> |args| >= 2 && args[0].Value? && args[1].Value?
    ensures r.outcome.Ok? ==> multiset(r.after) == multiset(rows) - multiset{Bookmark(args[0].value, args[1].value)}
    ensures r.outcome.Err? ==> r.after == rows && r.outcome.error == PlainError(UndefinedWhere)
  {
    if |args| >= 2 && args[0].Value? && args[1].Value?
    then Step(DestroyFirst(rows, Bookmark(args[0].value, args[1].value)), None, Ok(()))
    else Step(rows, None, Err(PlainError(UndefinedWhere)))
  }

  /** Creating a bookmark twice is creating it once. */
  lemma CreateIsIdempotent(rows: seq<Bookmark>, b: Bookmark)
    ensures FindOrCreate(FindOrCreate(rows, b), b) == FindOrCreate(rows, b)
  {
  }

  /** `findOrCreate` keeps the table free of duplicate pairs. */
  lemma CreateKeepsNoDuplicates(rows: seq<Bookmark>, b: Bookmark)
    requires NoDuplicates(rows)
    ensures NoDuplicates(FindOrCreate(rows, b))
  {
  }

  /** Deleting a row keeps the table free of duplicate pairs, and in such a
      table it deletes the pair altogether. */
  lemma {:induction false} RemoveDropsPair(rows: seq<Bookmark>, b: Bookmark)
    requires NoDuplicates(rows)
    ensures NoDuplicates(DestroyFirst(rows, b))
    ensures b !in DestroyFirst(rows, b)
  {
    if rows != [] {
      var tail := rows[1..];
      assert NoDuplicates(tail) by {
        forall i, j | 0 <= i < j < |tail| ensures tail[i] != tail[j] {
          assert tail[i] == rows[i + 1] && tail[j] == rows[j + 1];
        }
      }
      assert rows[0] !in tail by {
        forall j | 0 <= j < |tail| ensures tail[j] != rows[0] {
          assert tail[j] == rows[j + 1];
        }
      }
      if rows[0] != b {
        RemoveDropsPair(tail, b);
        var rest := DestroyFirst(tail, b);
        var r := [rows[0]] + rest;
        assert r == DestroyFirst(rows, b);
        forall i, j | 0 <= i < j < |r| ensures r[i] != r[j] {
          if i == 0 {
            assert r[j] == rest[j - 1] && rest[j - 1] in tail;
          } else {
            assert r[i] == rest[i - 1] && r[j] == rest[j - 1];
          }
        }
      }
    }
  }

  /** `createBookmark(u, p)` then `removeBookmark(u, p)` leaves the pair
      absent. */
  lemma CreateThenRemove(rows: seq<Bookmark>, b: Bookmark)
    requires NoDuplicates(rows)
    ensures b !in DestroyFirst(FindOrCreate(rows, b), b)
  {
    CreateKeepsNoDuplicates(rows, b);
    RemoveDropsPair(FindOrCreate(rows, b), b);
  }

  class BookmarksService {
    /** The injected `TransactionService`, over the committed Bookmarks
        table. */
    const transactions: TransactionService<seq<Bookmark>>

    constructor (transactions: TransactionService<seq<Bookmark>>)
      ensures this.transactions == transactions
    {
      this.transactions := transactions;
    }

    /** The table holds each pair at most once. */
    ghost predicate Valid()
      reads this, transactions
    {
      NoDuplicates(transactions.committed)
    }

    /** `createBookmark(userId, postId)`: in a fresh transaction, the pair is
        added unless it is there already, and committed. */
    method CreateBookmark(userId: int, postId: int) returns (r: Result<()>)
      requires Valid()
      modifies transactions
      ensures Valid()
      ensures r == Ok(())
      ensures transactions.committed == FindOrCreate(old(transactions.committed), Bookmark(userId, postId))
      ensures transactions.handles == old(transactions.handles) + 1
    {
      CreateKeepsNoDuplicates(transactions.committed, Bookmark(userId, postId));
      r := Transactional(transactions, [Value(userId), Value(postId)], CreateBookmarkBody);
    }

    /** `removeBookmark(userId, postId)`: in a fresh transaction, the row of
        the pair is deleted when there is one, and committed. */
    method RemoveBookmark(userId: int, postId: int) returns (r: Result<()>)
      requires Valid()
      modifies transactions
      ensures Valid()
      ensures r == Ok(())
      ensures transactions.committed == DestroyFirst(old(transactions.committed), Bookmark(userId, postId))
      ensures Bookmark(userId, postId) !in transactions.committed
      ensures transactions.handles == old(transactions.handles) + 1
    {
      RemoveDropsPair(transactions.committed, Bookmark(userId, postId));
      r := Transactional(transactions, [Value(userId), Value(postId)], RemoveBookmarkBody);
    }
  }
}

=== FILE: comments.dfy ===
/** `CommentsService`: comments are created only under an existing post,
    listed per post, and removed by id. */
module Comments {
  import opened Wrappers
  import opened Tables
  import opened Posts

  datatype Comment = Comment(id: nat, userId: int, content: string, postId: int)

  const PostNotFound := "Post not found"

  /** `findAll({ where: { postId } })` on the comments. */
  function OfPost(rows: seq<Comment>, postId: int): (r: seq<Comment>)
    ensures forall c :: c in r <==> c in rows && c.postId == postId
  {
    Filter(rows, (c: Comment) => c.postId == postId)
  }

  /** Comments of one post are not listed under another. */
  lemma OfPostIsPerPost(rows: seq<Comment>, c: Comment, p: int, q: int)
    requires c in OfPost(rows, p) && p != q
    ensures c !in OfPost(rows, q)
  {
  }

  /** A comment added under a post is listed with that post's comments,
      after the ones that were there. */
  lemma {:induction false} NewCommentIsListed(rows: seq<Comment>, c: Comment)
    ensures OfPost(rows + [c], c.postId) == OfPost(rows, c.postId) + [c]
  {
    FilterAppend(rows, [c], (d: Comment) => d.postId == c.postId);
  }

  class CommentTable {
    var rows: seq<Comment>
    var nextId: nat

    constructor ()
      ensures rows == [] && nextId == 1
    {
      rows := [];
      nextId := 1;
    }
  }

  class CommentsService {
    const comments: CommentTable
    const posts: PostTable

    constructor (comments: CommentTable, posts: PostTable)
      ensures this.comments == comments && this.posts == posts
    {
      this.comments := comments;
      this.posts := posts;
    }

    /** `createComment(userId, content, postId)`: an unknown post is the
        error 'Post not found' with nothing created; otherwise exactly one
        comment carrying the given values is appended, and no post changes. */
    method CreateComment(userId: int, content: string, postId: int) returns (r: Result<Comment>)
      modifies comments
      ensures unchanged(posts)
      ensures posts.FindByPk(postId).None? ==> r == Err(PlainError(PostNotFound)) && unchanged(comments)
      ensures posts.FindByPk(postId).Some? ==>
                && r == Ok(Comment(old(comments.nextId), userId, content, postId))
                && comments.rows == old(comments.rows) + [r.value]
                && comments.nextId == old(comments.nextId) + 1
    {
      var post := posts.FindByPk(postId);
      if post.None? {
        r := Err(PlainError(PostNotFound));
        return;
      }
      var comment := Comment(comments.nextId, userId, content, postId);
      comments.rows := comments.rows + [comment];
      comments.nextId := comments.nextId + 1;
      r := Ok(comment);
    }

    /** `getCommentsByPost(postId)`: exactly the comments of that post, in
        table order. */
    function GetCommentsByPost(postId: int): (r: seq<Comment>)
      reads this, comments
      ensures forall c :: c in r <==> c in comments.rows && c.postId == postId
    {
      OfPost(comments.rows, postId)
    }

    /** `remove(id)` as written: the delete is issued on the posts table, and
        the comment with that id stays. The posts table has no `id` column,
        so on a real database the statement fails; reading the filter as the
        posts' key, as this model does, the post with that key goes. */
    method RemoveAsWritten(id: int)
      requires posts.Valid()
      modifies posts
      ensures posts.Valid()
      ensures posts.rows == DestroyWhereKey(old(posts.rows), id)
      ensures posts.FindByPk(id).None?
      ensures unchanged(comments)
    {
      posts.Destroy(id);
      DestroyedPostIsGone(old(posts.rows), posts.nextId, id);
    }

    /** `remove(id)` as evidently intended: the comment with that id is
        deleted, every other comment and every post stays. */
    method Remove(id: int)
      modifies comments
      ensures unchanged(posts) && comments.nextId == old(comments.nextId)
      ensures comments.rows == Filter(old(comments.rows), (c: Comment) => c.id != id)
      ensures forall c :: c in comments.rows ==> c.id != id
      ensures forall c :: c in old(comments.rows) && c.id != id ==> c in comments.rows
    {
      comments.rows := Filter(comments.rows, (c: Comment) => c.id != id);
    }
  }

  /** The discrepancy on a table with comment 1 under post 3: the
      as-written `remove(1)` keeps the comment and, with the filter read as
      the posts' key, deletes post 1, another user's listing (on a real
      database the statement fails instead); the intended one deletes the
      comment alone. */
  lemma RemoveAsWrittenExample()
    ensures var posts := [Post(1, 8, None, map[]), Post(3, 7, None, map[])];
            var comments := [Comment(1, 7, "hi", 3)];
            && DestroyWhereKey(posts, 1) == [Post(3, 7, None, map[])]
            && Filter(comments, (c: Comment) => c.id != 1) == []
  {
    var posts := [Post(1, 8, None, map[]), Post(3, 7, None, map[])];
    assert posts[1..] == [Post(3, 7, None, map[])];
  }
}

=== FILE: crypto.dfy ===
/** The cryptography the services call into, kept abstract: bcrypt hashing
    and comparison, and JSON Web Token signing and verification. Each is a
    function value handed to the code that uses it, so the model assumes
    nothing about it beyond what a lemma states as a hypothesis. */
module Crypto {
  import opened Wrappers

  /** The claims the services put into a token: `userId`, `sub` (the row id)
      and `isAdmin`, which is absent when the object signed had no such
      field. Registered claims such as `iat` and `exp` (section 4.1.4 of
      RFC 7519) are added and checked inside `sign` and `verify`. */
  datatype Claims = Claims(userId: string, sub: nat, isAdmin: Option<bool>)

  /** The options passed to `sign`: the secret, and `expiresIn` as read from
      the environment (absent when the variable is unset). */
  datatype SignOptions = SignOptions(secret: Option<string>, expiresIn: Option<string>)

  /** `sign(claims, options, now)` is the token issued at `now`;
      `verify(token, secret, now)` is the claims of a token whose signature
      checks against `secret` and which has not expired at `now`, and absent
      otherwise (where the library would throw). */
  datatype Jwt = Jwt(
    sign: (Claims, SignOptions, int) -> string,
    verify: (string, Option<string>, int) -> Option<Claims>)

  /** `hash(password, cost)` and `compare(password, hash)` of bcrypt. */
  datatype Hasher = Hasher(
    hash: (string, nat) -> string,
    compare: (string, string) -> bool)

  /** The environment variables the token code reads. */
  datatype Env = Env(
    jwtSecret: Option<string>,
    jwtRefreshSecret: Option<string>,
    jwtExpirationTime: Option<string>,
    jwtRefreshExpirationTime: Option<string>)

  /** JavaScript's `value || fallback` on an optional string: an unset or
      empty variable gives the fallback. */
  function OrElse(value: Option<string>, fallback: string): string
  {
    if value.Some? && value.value != "" then value.value else fallback
  }

  /** A token signed with `secret` and the lifetime `expiresIn` verifies
      with `secret`, giving back the claims it was signed with, at the
      instant it was issued. This holds only for a lifetime the library
      accepts and that has not run out at issue: a set, positive span. */
  ghost predicate Accepts(jwt: Jwt, secret: string, expiresIn: Option<string>)
  {
    forall c: Claims, now: int ::
      jwt.verify(jwt.sign(c, SignOptions(Some(secret), expiresIn), now), Some(secret), now) == Some(c)
  }

  /** A password compares equal to its own hash. */
  ghost predicate Matches(h: Hasher)
  {
    forall password: string, cost: nat :: h.compare(password, h.hash(password, cost))
  }
}

=== FILE: document_counter.dfy ===
/** `DocumentCounterService.getNextDocumentNumber`: a per-`marketType`
    counter row, created at 1 and incremented by one on every later call. */
module DocumentCounter {

  /** The number the next call hands out for `marketType`. */
  function NextNumber(counters: map<string, int>, marketType: string): int
  {
    if marketType in counters then counters[marketType] + 1 else 1
  }

  /** The counter table after `k` successive calls for `marketType`. */
  function After(counters: map<string, int>, marketType: string, k: nat): map<string, int>
  {
    if k == 0 then counters
    else
      var before := After(counters, marketType, k - 1);
      before[marketType := NextNumber(before, marketType)]
  }

  /** The numbers returned by `k` successive calls for `marketType`, in order. */
  function Allocations(counters: map<string, int>, marketType: string, k: nat): seq<int>
  {
    if k == 0 then []
    else Allocations(counters, marketType, k - 1) + [NextNumber(After(counters, marketType, k - 1), marketType)]
  }

  /** The stored counter before any call (0 when there is no row). */
  function Base(counters: map<string, int>, marketType: string): int
  {
    if marketType in counters then counters[marketType] else 0
  }

  /** After `k` calls the row for `marketType` holds its starting value plus
      `k`, and no other row has changed. */
  lemma {:induction false} AfterCounts(counters: map<string, int>, marketType: string, k: nat)
    ensures k >= 1 ==> marketType in After(counters, marketType, k)
                       && After(counters, marketType, k)[marketType] == Base(counters, marketType) + k
    ensures forall other :: other != marketType ==>
              (other in After(counters, marketType, k) <==> other in counters)
    ensures forall other :: other != marketType && other in counters ==>
              After(counters, marketType, k)[other] == counters[other]
  {
    if k > 0 {
      AfterCounts(counters, marketType, k - 1);
    }
  }

  /** The i-th call (from 0) returns the starting value plus i + 1: the
      numbers handed out are consecutive. */
  lemma {:induction false} Consecutive(counters: map<string, int>, marketType: string, k: nat)
    ensures |Allocations(counters, marketType, k)| == k
    ensures forall i :: 0 <= i < k ==> Allocations(counters, marketType, k)[i] == Base(counters, marketType) + i + 1
  {
    if k > 0 {
      Consecutive(counters, marketType, k - 1);
      AfterCounts(counters, marketType, k - 1);
    }
  }

  /** From a table with no row for `marketType`, n successive calls return
      1, 2, ..., n: never a duplicate, never a gap. */
  lemma FromEmpty(counters: map<string, int>, marketType: string, n: nat)
    requires marketType !in counters
    ensures |Allocations(counters, marketType, n)| == n
    ensures forall i :: 0 <= i < n ==> Allocations(counters, marketType, n)[i] == i + 1
  {
    Consecutive(counters, marketType, n);
  }

  /** The `DocumentCounter` table: marketType (the primary key) to counter. */
  class DocumentCounterService {
    var counters: map<string, int>

    /** Every stored counter is positive. */
    ghost predicate Valid()
      reads this
    {
      forall m :: m in counters ==> counters[m] >= 1
    }

    constructor ()
      ensures counters == map[] && Valid()
    {
      counters := map[];
    }

    /** `getNextDocumentNumber(marketType, transaction)`: read the row; with
        none, create it with counter 1; otherwise add one and save. The
        number returned is the stored counter after the call. */
    method GetNextDocumentNumber(marketType: string) returns (n: int)
      requires Valid()
      modifies this
      ensures Valid()
      ensures n >= 1
      ensures n == NextNumber(old(counters), marketType)
      ensures counters == old(counters)[marketType := n]
    {
      if marketType !in counters {
        counters := counters[marketType := 1];
      } else {
        var counter := counters[marketType] + 1;
        counters := counters[marketType := counter];
      }
      n := counters[marketType];
    }
  }
}

=== FILE: email_repository.dfy ===
/** `EmailRepository`: the `Email` table of verification codes keyed by
    address, each with an expiry instant. Times are milliseconds since the
    epoch, passed in as `now`. */
module EmailRepository {
  import opened Wrappers
  import opened Tables

  /** Five minutes, in milliseconds. */
  const CodeLifetimeMs: int := 5 * 60 * 1000

  /** A row of the `Email` table. The table keeps timestamps, so every stored
      row has `updatedAt` set; it is not modelled. */
  datatype EmailRow = EmailRow(email: string, authCode: string, tokenExpires: int)

  /** The row is for `email` and has not expired at `now` (strictly later). */
  predicate Live(row: EmailRow, email: string, now: int)
  {
    row.email == email && row.tokenExpires > now
  }

  /** Position of the row `findEmail(email)` returns at `now`. */
  function FindLive(rows: seq<EmailRow>, email: string, now: int): (r: Option<nat>)
    ensures r.Some? ==> r.value < |rows| && Live(rows[r.value], email, now)
    ensures r.None? <==> forall j :: 0 <= j < |rows| ==> !Live(rows[j], email, now)
  {
    FirstIndex(rows, (row: EmailRow) => Live(row, email, now))
  }

  /** The table after `deleteEmail(email)`: every other row, in order. */
  function WithoutEmail(rows: seq<EmailRow>, email: string): (r: seq<EmailRow>)
    ensures forall i :: 0 <= i < |r| ==> r[i].email != email && r[i] in rows
    ensures forall j :: 0 <= j < |rows| && rows[j].email != email ==> rows[j] in r
  {
    Filter(rows, (row: EmailRow) => row.email != email)
  }

  /** The table holds no live code for `email` after its rows are deleted. */
  lemma NoneLiveAfterDelete(rows: seq<EmailRow>, email: string, now: int)
    ensures FindLive(WithoutEmail(rows, email), email, now).None?
  {
  }

  /** A code stored at `now` is live at `now`, and expires exactly when five
      minutes have passed. */
  lemma {:induction false} LiveUntilExpiry(rows: seq<EmailRow>, email: string, code: string, created: int, now: int)
    requires FindLive(rows, email, now).None?
    ensures var stored := rows + [EmailRow(email, code, created + CodeLifetimeMs)];
            FindLive(stored, email, now).Some? <==> now < created + CodeLifetimeMs
  {
    var stored := rows + [EmailRow(email, code, created + CodeLifetimeMs)];
    if now < created + CodeLifetimeMs {
      assert Live(stored[|rows|], email, now);
    } else {
      forall j | 0 <= j < |stored| ensures !Live(stored[j], email, now) {
        if j < |rows| { assert stored[j] == rows[j]; }
      }
    }
  }

  class EmailTable {
    var rows: seq<EmailRow>

    constructor ()
      ensures rows == []
    {
      rows := [];
    }

    /** `createEmail(email, authCode)`: append a row expiring five minutes
        from now; existing rows are left as they are. */
    method CreateEmail(email: string, authCode: string, now: int)
      modifies this
      ensures rows == old(rows) + [EmailRow(email, authCode, now + CodeLifetimeMs)]
    {
      rows := rows + [EmailRow(email, authCode, now + CodeLifetimeMs)];
    }

    /** `findEmail(email)`: a row for `email` whose `tokenExpires` is after
        `now`; expired rows are as good as absent. */
    function FindEmail(email: string, now: int): (r: Option<EmailRow>)
      reads this
      ensures r.Some? <==> exists i :: 0 <= i < |rows| && Live(rows[i], email, now)
      ensures r.Some? ==> r.value in rows && r.value.email == email && r.value.tokenExpires > now
    {
      match FindLive(rows, email, now)
      case None => None
      case Some(i) => Some(rows[i])
    }

    /** `deleteEmail(email)`: every row for `email`, live or expired, is
        removed; rows for other addresses stay. */
    method DeleteEmail(email: string)
      modifies this
      ensures rows == WithoutEmail(old(rows), email)
    {
      rows := WithoutEmail(rows, email);
    }

    /** `emailRecord.authCode = code; emailRecord.tokenExpires = expires;
        emailRecord.save()` on the row at position `i`. */
    method SaveRow(i: nat, authCode: string, tokenExpires: int)
      requires i < |rows|
      modifies this
      ensures rows == old(rows)[i := old(rows)[i].(authCode := authCode, tokenExpires := tokenExpires)]
    {
      rows := rows[i := rows[i].(authCode := authCode, tokenExpires := tokenExpires)];
    }
  }
}

=== FILE: email_service.dfy ===
/** `EmailService`: issuing and checking the e-mail verification codes kept
    in the `Email` table, and the password-reset mail. Delivery through the
    mail transport is recorded as an entry of `outbox`, written after the
    table update. */
module EmailService {
  import opened Wrappers
  import opened Strings
  import opened Users
  import opened EmailRepository

  datatype Mail = Mail(to: string, subject: string, html: string)

  /** Stands for the service's (Korean) message that the code has expired. */
  const CodeExpired := "verification code has expired"
  const UserNotFound := "User not found"
  const EmailNotVerified := "Email not verified"
  /** Stands for the subject line of the password-reset mail. */
  const ResetSubject := "password reset"

  /** The link in the password-reset mail; the front-end address, which
      comes from the environment, and the surrounding text are left out. */
  function ResetPasswordHtml(code: string): string
  {
    "/init-password?token=" + code
  }

  /** `generateAuthCode()`: `Math.floor(100000 + Math.random() * 900000)`
      printed in decimal, where `draw` is the whole part of
      `Math.random() * 900000`. The code is six decimal digits spelling
      100000 + draw. */
  function GenerateAuthCode(draw: nat): (code: string)
    requires draw < 900000
    ensures |code| == 6
    ensures forall i :: 0 <= i < |code| ==> IsDigit(code[i])
    ensures ParseDecimal(code) == 100000 + draw
  {
    assert Pow10(5) == 100000 && Pow10(6) == 1000000;
    DecimalLength(100000 + draw, 6);
    DecimalRoundTrip(100000 + draw);
    ToDecimal(100000 + draw)
  }

  /** The `Email` table after `sendAuthCode(to, code)` at `now`: with no live
      row for `to`, a new row; otherwise the first live row gets the new code
      and a new expiry, and no row is added. */
  function Reissue(rows: seq<EmailRow>, to: string, code: string, now: int): (r: seq<EmailRow>)
    ensures |rows| <= |r| <= |rows| + 1
    ensures forall j :: 0 <= j < |rows| && !Live(rows[j], to, now) ==> r[j] == rows[j]
  {
    match FindLive(rows, to, now)
    case None => rows + [EmailRow(to, code, now + CodeLifetimeMs)]
    case Some(i) => rows[i := rows[i].(authCode := code, tokenExpires := now + CodeLifetimeMs)]
  }

  /** After a reissue the live row for `to` holds exactly the new code,
      expiring five minutes from `now`; at most one row was added, and none
      when a live row existed. */
  lemma {:induction false} ReissueHoldsCode(rows: seq<EmailRow>, to: string, code: string, now: int)
    ensures var after := Reissue(rows, to, code, now);
            && FindLive(after, to, now).Some?
            && after[FindLive(after, to, now).value] == EmailRow(to, code, now + CodeLifetimeMs)
    ensures FindLive(rows, to, now).Some? ==> |Reissue(rows, to, code, now)| == |rows|
    ensures FindLive(rows, to, now).None? ==> |Reissue(rows, to, code, now)| == |rows| + 1
  {
    var after := Reissue(rows, to, code, now);
    var issuedRow := EmailRow(to, code, now + CodeLifetimeMs);
    match FindLive(rows, to, now)
    case None =>
      assert after[|rows|] == issuedRow;
      forall j | 0 <= j < |rows| ensures !Live(after[j], to, now) {
        assert after[j] == rows[j];
      }
      assert FindLive(after, to, now) == Some(|rows|) by {
        FirstLiveAt(after, to, now, |rows|);
      }
    case Some(i) =>
      assert after[i] == issuedRow;
      forall j | 0 <= j < i ensures !Live(after[j], to, now) {
        assert after[j] == rows[j];
      }
      FirstLiveAt(after, to, now, i);
  }

  /** A live row with no live row before it is the one `findEmail` returns. */
  lemma FirstLiveAt(rows: seq<EmailRow>, email: string, now: int, i: nat)
    requires i < |rows| && Live(rows[i], email, now)
    requires forall j :: 0 <= j < i ==> !Live(rows[j], email, now)
    ensures FindLive(rows, email, now) == Some(i)
  {
  }

  /** What `verifyAuthCode` returns, and the table it leaves. */
  datatype Checked = Checked(outcome: Result<bool>, rows: seq<EmailRow>)

  /** `verifyAuthCode(email, authCode)` at `now`: no live row throws; a live
      row with the same code returns true and deletes every row for the
      address; a different code returns false and changes nothing. */
  function Check(rows: seq<EmailRow>, email: string, authCode: string, now: int): (r: Checked)
    ensures r.outcome.Err? <==> FindLive(rows, email, now).None?
    ensures r.outcome.Err? ==> r.outcome.error == PlainError(CodeExpired) && r.rows == rows
    ensures r.outcome == Ok(false) ==> r.rows == rows
    ensures r.outcome == Ok(true) ==> FindLive(r.rows, email, now).None?
    ensures r.outcome == Ok(true) ==> forall j :: 0 <= j < |r.rows| ==> r.rows[j].email != email
    ensures FindLive(rows, email, now).Some? ==>
              (r.outcome == Ok(true) <==> rows[FindLive(rows, email, now).value].authCode == authCode)
    ensures r.outcome == Ok(true) ==> r.rows == WithoutEmail(rows, email)
  {
    match FindLive(rows, email, now)
    case None => Checked(Err(PlainError(CodeExpired)), rows)
    case Some(i) =>
      if rows[i].authCode == authCode then Checked(Ok(true), WithoutEmail(rows, email))
      else Checked(Ok(false), rows)
  }

  /** Single use: a code just issued is accepted once; asking again with the
      same code then finds no live row and throws. */
  lemma IssuedCodeIsAcceptedOnce(rows: seq<EmailRow>, to: string, code: string, now: int)
    ensures var first := Check(Reissue(rows, to, code, now), to, code, now);
            && first.outcome == Ok(true)
            && Check(first.rows, to, code, now).outcome == Err(PlainError(CodeExpired))
  {
    ReissueHoldsCode(rows, to, code, now);
    NoneLiveAfterDelete(Reissue(rows, to, code, now), to, now);
  }

  /** A wrong code is refused and leaves the row in place, so the right code
      still works afterwards. */
  lemma WrongCodeAllowsRetry(rows: seq<EmailRow>, to: string, code: string, wrong: string, now: int)
    requires wrong != code
    ensures var issued := Reissue(rows, to, code, now);
            var first := Check(issued, to, wrong, now);
            && first == Checked(Ok(false), issued)
            && Check(first.rows, to, code, now).outcome == Ok(true)
  {
    ReissueHoldsCode(rows, to, code, now);
  }

  /** Expiry: once five minutes have passed the issued code is refused even
      when it is right, provided no row for the address was stored to expire
      later than that. */
  lemma {:induction false} IssuedCodeExpires(rows: seq<EmailRow>, to: string, code: string, issued: int, later: int)
    requires issued + CodeLifetimeMs <= later
    requires forall j :: 0 <= j < |rows| && rows[j].email == to ==> rows[j].tokenExpires <= issued + CodeLifetimeMs
    ensures Check(Reissue(rows, to, code, issued), to, code, later).outcome == Err(PlainError(CodeExpired))
  {
    var after := Reissue(rows, to, code, issued);
    forall j | 0 <= j < |after| ensures !Live(after[j], to, later) {
      if j < |rows| && after[j] == rows[j] {
      }
    }
  }

  class EmailService {
    const table: EmailTable
    const users: UserTable
    var outbox: seq<Mail>

    constructor (table: EmailTable, users: UserTable)
      ensures this.table == table && this.users == users && outbox == []
    {
      this.table := table;
      this.users := users;
      outbox := [];
    }

    /** `sendAuthCode(mailOptions, code)`: store the code for
        `mailOptions.to`, then send the mail. */
    method SendAuthCode(mail: Mail, code: string, now: int)
      modifies this, table
      ensures table.rows == Reissue(old(table.rows), mail.to, code, now)
      ensures table.FindEmail(mail.to, now) == Some(EmailRow(mail.to, code, now + CodeLifetimeMs))
      ensures outbox == old(outbox) + [mail]
    {
      var emailRecord := table.FindEmail(mail.to, now);
      if emailRecord.None? {
        table.CreateEmail(mail.to, code, now);
      } else {
        var newCodeExpiration := now + CodeLifetimeMs;
        var i := FindLive(table.rows, mail.to, now).value;
        table.SaveRow(i, code, newCodeExpiration);
      }
      ReissueHoldsCode(old(table.rows), mail.to, code, now);
      outbox := outbox + [mail];
    }

    /** `verifyAuthCode(email, authCode)`. */
    method VerifyAuthCode(email: string, authCode: string, now: int) returns (r: Result<bool>)
      modifies table
      ensures Checked(r, table.rows) == Check(old(table.rows), email, authCode, now)
    {
      var emailRecord := table.FindEmail(email, now);
      if emailRecord.None? {
        r := Err(PlainError(CodeExpired));
        return;
      }
      if emailRecord.value.authCode == authCode {
        table.DeleteEmail(email);
        r := Ok(true);
        return;
      }
      r := Ok(false);
    }

    /** `sendResetPasswordEmail(email)`: look the user up by address, store a
        fresh code for the address, and only then check that the user exists;
        the stored code stays when it throws. */
    method SendResetPasswordEmail(email: string, draw: nat, now: int) returns (r: Result<()>)
      requires draw < 900000
      modifies this, table
      ensures table.rows == old(table.rows) + [EmailRow(email, GenerateAuthCode(draw), now + CodeLifetimeMs)]
      ensures users.FindByEmail(email).None? ==>
                r == Err(PlainError(UserNotFound)) && outbox == old(outbox)
      ensures users.FindByEmail(email).Some? ==>
                r == Ok(()) && outbox == old(outbox) + [Mail(email, ResetSubject, ResetPasswordHtml(GenerateAuthCode(draw)))]
    {
      var user := users.FindByEmail(email);
      var code := GenerateAuthCode(draw);
      table.CreateEmail(email, code, now);
      if user.None? {
        r := Err(PlainError(UserNotFound));
        return;
      }
      if user.value.email != Some(email) {
        r := Err(PlainError(EmailNotVerified));
        return;
      }
      outbox := outbox + [Mail(email, ResetSubject, ResetPasswordHtml(code))];
      r := Ok(());
    }
  }
}

=== FILE: http.dfy ===
/** The parts of an Express request and response the controllers and the
    guard touch: the authorization header, the parsed cookies and the
    authenticated user of a request; the cookies set or cleared, the status
    and the JSON body of a response. */
module Http {
  import opened Wrappers
  import opened Crypto

  const AccessTokenCookie := "access_token"
  const RefreshTokenCookie := "refresh_token"
  /** One hour and seven days, in milliseconds, as `res.cookie` takes them. */
  const AccessMaxAgeMs := 1 * 60 * 60 * 1000
  const RefreshMaxAgeMs := 7 * 24 * 60 * 60 * 1000

  datatype CookieOptions = CookieOptions(httpOnly: bool, secure: bool, maxAgeMs: int)

  /** The last `Set-Cookie` a response carries for a name: a value, or the
      expired, empty cookie `clearCookie` writes. */
  datatype CookieWrite = Set(value: string, options: CookieOptions) | Cleared

  /** The `Max-Age` attribute, in whole seconds (section 5.2.2 of RFC 6265),
      written for a positive `maxAge` given in milliseconds. */
  function MaxAgeSeconds(maxAgeMs: nat): nat
  {
    maxAgeMs / 1000
  }

  /** The token cookies live one hour and seven days. */
  lemma TokenCookieLifetimes()
    ensures MaxAgeSeconds(AccessMaxAgeMs) == 3600
    ensures MaxAgeSeconds(RefreshMaxAgeMs) == 604800
  {
  }

  /** The options both token cookies are written with; `secure` holds in
      production. */
  function TokenCookie(maxAgeMs: int, production: bool): CookieOptions
  {
    CookieOptions(true, production, maxAgeMs)
  }

  class Request {
    var authorization: Option<string>
    const cookies: map<string, string>
    var user: Option<Claims>

    constructor (authorization: Option<string>, cookies: map<string, string>, user: Option<Claims>)
      ensures this.authorization == authorization && this.cookies == cookies && this.user == user
    {
      this.authorization := authorization;
      this.cookies := cookies;
      this.user := user;
    }

    /** `req.cookies?.[name]` where JavaScript reads it as true: present and
        not empty. */
    function Cookie(name: string): (r: Option<string>)
      ensures r.Some? <==> name in cookies && cookies[name] != ""
      ensures r.Some? ==> r.value == cookies[name]
    {
      if name in cookies && cookies[name] != "" then Some(cookies[name]) else None
    }
  }

  class Response {
    var jar: map<string, CookieWrite>
    var status: Option<int>
    var body: map<string, string>

    constructor ()
      ensures jar == map[] && status == None && body == map[]
    {
      jar := map[];
      status := None;
      body := map[];
    }

    /** `res.cookie(name, value, options)`. */
    method SetCookie(name: string, value: string, options: CookieOptions)
      modifies this
      ensures jar == old(jar)[name := Set(value, options)]
      ensures status == old(status) && body == old(body)
    {
      jar := jar[name := Set(value, options)];
    }

    /** `res.clearCookie(name)`. */
    method ClearCookie(name: string)
      modifies this
      ensures jar == old(jar)[name := Cleared]
      ensures status == old(status) && body == old(body)
    {
      jar := jar[name := Cleared];
    }

    /** `res.status(code).json(body)`. */
    method Send(code: int, json: map<string, string>)
      modifies this
      ensures jar == old(jar) && status == Some(code) && body == json
    {
      status := Some(code);
      body := json;
    }
  }
}

=== FILE: post_controller.dfy ===
/** `PostController`: who a new post is attributed to, the ownership gate of
    `update` and `remove`, the image list `update` writes, and the answers
    of `findOne`. `req.user` is the claims of the verified access token;
    the uploaded files are given as the addresses the uploads produced. */
module PostController {
  import opened Wrappers
  import opened Strings
  import opened Users
  import opened Crypto
  import opened Http
  import opened UserRules
  import opened Posts

  const Error := "ERROR"
  /** Stands for the (Korean) message "the post cannot be found". */
  const NotFoundMessage := "the post cannot be found"
  const PostNotFound := "Post not found"

  /** `payload.isAdmin` read as a condition: only a present `true` counts. */
  predicate IsAdmin(payload: Claims)
  {
    payload.isAdmin == Some(true)
  }

  /** The body of a create request: the post's columns, and a `userId` when
      the client sent one (nothing strips unknown keys). */
  datatype CreatePostBody = CreatePostBody(userId: Option<int>, image: Option<seq<string>>, fields: map<string, string>)

  /** The body of an update request: `prevImage`, the comma-separated
      addresses of the images to keep, and the columns to write. */
  datatype UpdatePostBody = UpdatePostBody(
    prevImage: Option<string>,
    userId: Option<int>,
    image: Option<seq<string>>,
    fields: map<string, string>)

  /** The images `update` keeps: `prevImage` split on ',' when it is a
      non-empty string, and none otherwise. */
  function KeptImages(prevImage: Option<string>): (r: seq<string>)
    ensures prevImage.None? || prevImage.value == "" ==> r == []
    ensures prevImage.Some? && prevImage.value != "" ==> Join(r, ',') == prevImage.value
    ensures forall i :: 0 <= i < |r| ==> ',' !in r[i]
  {
    if prevImage.Some? && prevImage.value != "" then Split(prevImage.value, ',') else []
  }

  /** The payload `update` writes: the body without `prevImage`; when files
      came with the request, `image` is the kept images followed by the
      uploads' addresses, and otherwise whatever the body held. */
  function UpdatePatch(body: UpdatePostBody, uploaded: Option<seq<string>>): (p: PostPatch)
    ensures p.userId == body.userId && p.fields == body.fields
    ensures uploaded.None? ==> p.image == body.image
    ensures uploaded.Some? ==>
              var kept := KeptImages(body.prevImage);
              && p.image.Some? && |p.image.value| == |kept| + |uploaded.value|
              && p.image.value[..|kept|] == kept && p.image.value[|kept|..] == uploaded.value
  {
    PostPatch(body.userId,
              if uploaded.Some? then Some(KeptImages(body.prevImage) + uploaded.value) else body.image,
              body.fields)
  }

  /** The kept images of an update with files, joined back with ',', give
      `prevImage` again. */
  lemma KeptImagesRoundTrip(body: UpdatePostBody, uploads: seq<string>)
    requires body.prevImage.Some? && body.prevImage.value != ""
    ensures var image := UpdatePatch(body, Some(uploads)).image.value;
            Join(image[..|image| - |uploads|], ',') == body.prevImage.value
  {
  }

  /** The gate of `update` and `remove`: the signed-in login id exists, and
      the caller is an admin or the post's author. */
  predicate MayChange(users: UserTable, posts: PostTable, payload: Claims, postId: int): (b: bool)
    reads users, posts
    ensures b ==> exists i :: 0 <= i < |users.rows| && users.rows[i].userId == payload.userId
    ensures b && !IsAdmin(payload) ==>
              exists k :: 0 <= k < |posts.rows| && posts.rows[k].postId == postId
                          && posts.rows[k].userId == GetByUserId(users, payload.userId).value.id
    ensures GetByUserId(users, payload.userId).Ok? && IsAdmin(payload) ==> b
  {
    && GetByUserId(users, payload.userId).Ok?
    && (IsAdmin(payload)
        || (posts.FindByPk(postId).Some? && GetByUserId(users, payload.userId).value.id == posts.FindByPk(postId).value.userId))
  }

  class PostController {
    const posts: PostTable
    const users: UserTable

    constructor (posts: PostTable, users: UserTable)
      ensures this.posts == posts && this.users == users
    {
      this.posts := posts;
      this.users := users;
    }

    /** `create(createPostDto, files, req, res)`: the post is stored with the
        token's `sub` as author unless the body names a `userId`, which the
        spread writes over it; files replace the body's `image` with the
        uploads' addresses. `getByUserId` is not awaited, so no caller is
        refused, and the answer is 201. */
    method Create(payload: Claims, body: CreatePostBody, uploaded: Option<seq<string>>, res: Response) returns (post: Post)
      requires posts.Valid()
      modifies posts, res
      ensures posts.Valid()
      ensures post == Post(old(posts.nextId), body.userId.GetOr(payload.sub),
                           if uploaded.Some? then uploaded else body.image, body.fields)
      ensures posts.rows == old(posts.rows) + [post]
      ensures res.status == Some(201) && res.jar == old(res.jar)
    {
      var image := if uploaded.Some? then uploaded else body.image;
      post := posts.Create(body.userId.GetOr(payload.sub), image, body.fields);
      res.Send(201, map["result" := "SUCCESS"]);
    }

    /** `findOne(id, res)` as written: a missing post answers 404; for an
        existing one the controller calls `findPrevAndNextPost`, which
        `PostService` does not define, and the resulting TypeError is turned
        into an InternalServerError. */
    method FindOneAsWritten(postId: int, res: Response) returns (r: Result<Option<Post>>)
      modifies res
      ensures posts.FindByPk(postId).None? ==>
                r == Ok(None) && res.status == Some(404) && res.body == map["message" := NotFoundMessage]
      ensures posts.FindByPk(postId).Some? ==> r == Err(InternalServerError(Error)) && unchanged(res)
    {
      var post := posts.FindByPk(postId);
      if post.None? {
        res.Send(404, map["message" := NotFoundMessage]);
        r := Ok(None);
        return;
      }
      // `findPrevAndNextPost` is not a member of PostService: TypeError
      r := Err(InternalServerError(Error));
    }

    /** `findOne(id, res)` as evidently intended: 404 for a missing post,
        else 200 with the post. */
    method FindOne(postId: int, res: Response) returns (r: Result<Option<Post>>)
      modifies res
      ensures r.Ok? && r.value == posts.FindByPk(postId)
      ensures res.status == if r.value.None? then Some(404) else Some(200)
    {
      var post := posts.FindByPk(postId);
      if post.None? {
        res.Send(404, map["message" := NotFoundMessage]);
      } else {
        res.Send(200, map["result" := "SUCCESS"]);
      }
      r := Ok(post);
    }

    /** `update(id, files, updatePostDto, req, res)`: a caller that passes
        `MayChange` gets the payload written and 200; every failure (unknown
        login id, missing post when not an admin, not the author) is caught
        and answered 404 with nothing written. An admin updating a missing
        post writes nothing and gets 200. */
    method Update(payload: Claims, postId: int, body: UpdatePostBody, uploaded: Option<seq<string>>, res: Response)
      requires posts.Valid()
      modifies posts, res
      ensures posts.Valid()
      ensures res.jar == old(res.jar)
      ensures !old(MayChange(users, posts, payload, postId)) ==>
                && unchanged(posts)
                && res.status == Some(404) && res.body == map["result" := Error, "message" := NotFoundMessage]
      ensures old(MayChange(users, posts, payload, postId)) ==>
                && posts.rows == UpdateWhereKey(old(posts.rows), postId, UpdatePatch(body, uploaded))
                && res.status == Some(200) && res.body == map["result" := "SUCCESS"]
      ensures old(MayChange(users, posts, payload, postId)) && old(posts.FindByPk(postId)).Some? ==>
                posts.FindByPk(postId) == Some(Posts.Apply(old(posts.FindByPk(postId)).value, UpdatePatch(body, uploaded)))
      ensures old(posts.FindByPk(postId)).None? ==> posts.rows == old(posts.rows)
    {
      if !MayChange(users, posts, payload, postId) {
        res.Send(404, map["result" := Error, "message" := NotFoundMessage]);
        return;
      }
      var updatePost := UpdatePatch(body, uploaded);
      if posts.FindByPk(postId).None? {
        UpdateOfMissingKeyChangesNothing(posts.rows, postId, updatePost);
      }
      UpdateKeepsKeys(posts.rows, posts.nextId, postId, updatePost);
      posts.Update(postId, updatePost);
      res.Send(200, map["result" := "SUCCESS"]);
    }

    /** `remove(id, req, res)`: an unknown login id is `getByUserId`'s
        Unauthorized, a missing post NotFound, a caller who is neither admin
        nor author Unauthorized; otherwise the post is deleted and the answer
        is 200. */
    method Remove(payload: Claims, postId: int, res: Response) returns (r: Result<()>)
      requires posts.Valid()
      modifies posts, res
      ensures posts.Valid()
      ensures old(GetByUserId(users, payload.userId)).Err? ==>
                r == Err(Unauthorized(NoAccess)) && unchanged(posts) && unchanged(res)
      ensures old(GetByUserId(users, payload.userId)).Ok? && old(posts.FindByPk(postId)).None? ==>
                r == Err(NotFound(PostNotFound)) && unchanged(posts) && unchanged(res)
      ensures old(posts.FindByPk(postId)).Some? && old(GetByUserId(users, payload.userId)).Ok? && !old(MayChange(users, posts, payload, postId)) ==>
                r == Err(Unauthorized(NoAccess)) && unchanged(posts) && unchanged(res)
      ensures old(posts.FindByPk(postId)).Some? && old(MayChange(users, posts, payload, postId)) ==>
                && r == Ok(())
                && posts.rows == DestroyWhereKey(old(posts.rows), postId)
                && posts.FindByPk(postId).None?
                && res.status == Some(200) && res.body == map["result" := "SUCCESS"] && res.jar == old(res.jar)
    {
      var user := GetByUserId(users, payload.userId);
      if user.Err? {
        r := Err(user.error);
        return;
      }
      var post := posts.FindByPk(postId);
      if post.None? {
        r := Err(NotFound(PostNotFound));
        return;
      }
      if !IsAdmin(payload) && user.value.id != post.value.userId {
        r := Err(Unauthorized(NoAccess));
        return;
      }
      DestroyedPostIsGone(posts.rows, posts.nextId, postId);
      posts.Destroy(postId);
      res.Send(200, map["result" := "SUCCESS"]);
      r := Ok(());
    }
  }
}

=== FILE: posts.dfy ===
/** The posts table underneath `PostService`: `create`, `findByPk`,
    `update` and `destroy` on the rows, keyed by the auto-increment
    `postId`. Columns other than the key, the author and the image list are
    kept by name in `fields`. */
module Posts {
  import opened Wrappers
  import opened Tables

  datatype Post = Post(postId: nat, userId: int, image: Option<seq<string>>, fields: map<string, string>)

  /** The columns an `update` writes: those present in the payload. */
  datatype PostPatch = PostPatch(userId: Option<int>, image: Option<seq<string>>, fields: map<string, string>)

  function Apply(p: Post, patch: PostPatch): (q: Post)
    ensures q.postId == p.postId
    ensures q.userId == patch.userId.GetOr(p.userId)
    ensures q.image == if patch.image.Some? then patch.image else p.image
    ensures q.fields.Keys == p.fields.Keys + patch.fields.Keys
    ensures forall k :: k in q.fields ==> q.fields[k] == if k in patch.fields then patch.fields[k] else p.fields[k]
  {
    p.(userId := patch.userId.GetOr(p.userId),
       image := if patch.image.Some? then patch.image else p.image,
       fields := p.fields + patch.fields)
  }

  /** `update(patch, { where: key })` on the rows of the table. */
  function UpdateWhereKey(rows: seq<Post>, postId: int, patch: PostPatch): (r: seq<Post>)
    ensures |r| == |rows|
    ensures forall i :: 0 <= i < |rows| ==> r[i] == if rows[i].postId == postId then Apply(rows[i], patch) else rows[i]
  {
    UpdateWhere(rows, (p: Post) => p.postId == postId, (p: Post) => Apply(p, patch))
  }

  /** `destroy({ where: key })` on the rows of the table. */
  function DestroyWhereKey(rows: seq<Post>, postId: int): (r: seq<Post>)
    ensures forall i :: 0 <= i < |r| ==> r[i] in rows && r[i].postId != postId
    ensures forall p :: p in rows && p.postId != postId ==> p in r
  {
    Filter(rows, (p: Post) => p.postId != postId)
  }

  /** The table invariant: keys are below the next auto-increment value and
      no two rows share one. */
  ghost predicate WellFormed(rows: seq<Post>, nextId: nat)
  {
    && (forall i :: 0 <= i < |rows| ==> rows[i].postId < nextId)
    && (forall i, j :: 0 <= i < j < |rows| ==> rows[i].postId != rows[j].postId)
  }

  /** `findByPk` over the rows: the row with the key, if any. */
  function RowByKey(rows: seq<Post>, postId: int): (r: Option<Post>)
    ensures r.Some? <==> exists i :: 0 <= i < |rows| && rows[i].postId == postId
    ensures r.Some? ==> r.value in rows && r.value.postId == postId
  {
    FindFirst(rows, (p: Post) => p.postId == postId)
  }

  /** An update writes no key: every row keeps its `postId`. */
  lemma UpdateKeepsKeyColumn(rows: seq<Post>, postId: int, patch: PostPatch)
    ensures |UpdateWhereKey(rows, postId, patch)| == |rows|
    ensures forall i :: 0 <= i < |rows| ==> UpdateWhereKey(rows, postId, patch)[i].postId == rows[i].postId
  {
  }

  /** An update keeps the invariant, and the post with the key is then the
      old one with the patch applied. */
  lemma UpdateKeepsKeys(rows: seq<Post>, nextId: nat, postId: int, patch: PostPatch)
    requires WellFormed(rows, nextId)
    ensures WellFormed(UpdateWhereKey(rows, postId, patch), nextId)
    ensures var found := RowByKey(rows, postId);
            RowByKey(UpdateWhereKey(rows, postId, patch), postId) == if found.Some? then Some(Apply(found.value, patch)) else None
  {
    var r := UpdateWhereKey(rows, postId, patch);
    UpdateKeepsKeyColumn(rows, postId, patch);
    var found := RowByKey(rows, postId);
    var after := RowByKey(r, postId);
    if found.Some? {
      var i :| 0 <= i < |rows| && rows[i] == found.value;
      var j :| 0 <= j < |r| && r[j] == after.value;
      assert rows[j].postId == postId;
      assert i == j;
    }
  }

  /** An update whose key matches no row changes nothing. */
  lemma UpdateOfMissingKeyChangesNothing(rows: seq<Post>, postId: int, patch: PostPatch)
    requires RowByKey(rows, postId).None?
    ensures UpdateWhereKey(rows, postId, patch) == rows
  {
    var r := UpdateWhereKey(rows, postId, patch);
    forall i | 0 <= i < |rows| ensures r[i] == rows[i] {
      assert rows[i].postId != postId;
    }
  }

  /** After a delete, no row has the key, and the invariant holds. */
  lemma DestroyedPostIsGone(rows: seq<Post>, nextId: nat, postId: int)
    requires WellFormed(rows, nextId)
    ensures RowByKey(DestroyWhereKey(rows, postId), postId).None?
    ensures WellFormed(DestroyWhereKey(rows, postId), nextId)
  {
    KeysOfKept(rows, nextId, postId);
  }

  /** The rows a delete keeps still have distinct keys below `nextId`. */
  lemma KeysOfKept(rows: seq<Post>, nextId: nat, postId: int)
    requires WellFormed(rows, nextId)
    ensures WellFormed(DestroyWhereKey(rows, postId), nextId)
  {
    var kept := DestroyWhereKey(rows, postId);
    FilterNoDuplicates(rows, (p: Post) => p.postId != postId) by {
      forall i, j | 0 <= i < j < |rows| ensures rows[i] != rows[j] {
        assert rows[i].postId != rows[j].postId;
      }
    }
    forall i, j | 0 <= i < j < |kept| ensures kept[i].postId != kept[j].postId {
      var a :| 0 <= a < |rows| && rows[a] == kept[i];
      var b :| 0 <= b < |rows| && rows[b] == kept[j];
      assert kept[i] != kept[j];
      assert a != b;
    }
  }

  class PostTable {
    var rows: seq<Post>
    var nextId: nat

    ghost predicate Valid()
      reads this
    {
      WellFormed(rows, nextId)
    }

    constructor ()
      ensures rows == [] && Valid()
    {
      rows := [];
      nextId := 1;
    }

    /** `findByPk(postId)`. */
    function FindByPk(postId: int): (r: Option<Post>)
      reads this
      ensures r == RowByKey(rows, postId)
    {
      RowByKey(rows, postId)
    }

    /** `create(post)`: a new row with the next key. */
    method Create(userId: int, image: Option<seq<string>>, fields: map<string, string>) returns (p: Post)
      requires Valid()
      modifies this
      ensures Valid()
      ensures p == Post(old(nextId), userId, image, fields)
      ensures rows == old(rows) + [p] && nextId == old(nextId) + 1
    {
      p := Post(nextId, userId, image, fields);
      rows := rows + [p];
      nextId := nextId + 1;
    }

    /** `update(patch, { where: key })`. */
    method Update(postId: int, patch: PostPatch)
      requires Valid()
      modifies this
      ensures Valid() && nextId == old(nextId)
      ensures rows == UpdateWhereKey(old(rows), postId, patch)
    {
      UpdateKeepsKeys(rows, nextId, postId, patch);
      rows := UpdateWhereKey(rows, postId, patch);
    }

    /** `destroy({ where: key })`. */
    method Destroy(postId: int)
      requires Valid()
      modifies this
      ensures Valid() && nextId == old(nextId)
      ensures rows == DestroyWhereKey(old(rows), postId)
    {
      DestroyedPostIsGone(rows, nextId, postId);
      rows := DestroyWhereKey(rows, postId);
    }
  }
}

=== FILE: strings.dfy ===
/** The string operations the services rely on: JavaScript's
    `String.prototype.split` on a one-character separator, and
    `Number.prototype.toString()` on a non-negative integer. */
module Strings {
  import opened Wrappers

  /** The first position of `c` in `s`. */
  function IndexOf(s: string, c: char): (r: Option<nat>)
    ensures r.Some? ==> r.value < |s| && s[r.value] == c && c !in s[..r.value]
    ensures r.None? ==> c !in s
  {
    if s == [] then None
    else if s[0] == c then Some(0)
    else
      match IndexOf(s[1..], c)
      case None => None
      case Some(i) =>
        assert s[1..][..i] == s[1..i + 1];
        assert s[..i + 1] == [s[0]] + s[1..i + 1];
        Some(i + 1)
  }

  /** Pieces glued back together with the separator between them. */
  function Join(pieces: seq<string>, sep: char): string
  {
    if pieces == [] then ""
    else if |pieces| == 1 then pieces[0]
    else pieces[0] + [sep] + Join(pieces[1..], sep)
  }

  /** `s.split(sep)`: the maximal separator-free pieces of `s`, in order;
      an empty `s` gives one empty piece, as in JavaScript. */
  function Split(s: string, sep: char): (pieces: seq<string>)
    ensures |pieces| >= 1
    ensures forall i :: 0 <= i < |pieces| ==> sep !in pieces[i]
    ensures Join(pieces, sep) == s
    decreases |s|
  {
    match IndexOf(s, sep)
    case None => [s]
    case Some(i) =>
      var rest := Split(s[i + 1..], sep);
      assert s == s[..i] + [sep] + s[i + 1..];
      [s[..i]] + rest
  }

  /** A string with no separator in it is one piece. */
  lemma SplitNoSeparator(s: string, sep: char)
    requires sep !in s
    ensures Split(s, sep) == [s]
  {
  }

  /** The first separator after a separator-free head is the one right after it. */
  lemma {:induction false} IndexAfterPrefix(a: string, sep: char, b: string)
    requires sep !in a
    ensures IndexOf(a + [sep] + b, sep) == Some(|a|)
  {
    if a != [] {
      assert (a + [sep] + b)[1..] == a[1..] + [sep] + b;
      IndexAfterPrefix(a[1..], sep, b);
    }
  }

  /** A separator-free head followed by the separator splits off as the first piece. */
  lemma {:induction false} SplitPrefix(a: string, sep: char, b: string)
    requires sep !in a
    ensures Split(a + [sep] + b, sep) == [a] + Split(b, sep)
  {
    var s := a + [sep] + b;
    IndexAfterPrefix(a, sep, b);
    assert s[..|a|] == a;
    assert s[|a| + 1..] == b;
  }

  /** A joined string starts with its first piece, followed by the end or
      by the separator. */
  lemma JoinHead(pieces: seq<string>, sep: char)
    requires |pieces| >= 1
    ensures var s := Join(pieces, sep);
            && |pieces[0]| <= |s| && s[..|pieces[0]|] == pieces[0]
            && (|pieces| == 1 <==> |s| == |pieces[0]|)
            && (|pieces| >= 2 ==> s[|pieces[0]|] == sep && s[|pieces[0]| + 1..] == Join(pieces[1..], sep))
  {
    var s := Join(pieces, sep);
    if |pieces| >= 2 {
      assert s == pieces[0] + [sep] + Join(pieces[1..], sep);
      assert s[..|pieces[0]|] == pieces[0];
    }
  }

  /** Round trip: joining separator-free pieces and splitting gives the pieces back. */
  lemma {:induction false} SplitJoin(pieces: seq<string>, sep: char)
    requires |pieces| >= 1
    requires forall i :: 0 <= i < |pieces| ==> sep !in pieces[i]
    ensures Split(Join(pieces, sep), sep) == pieces
    decreases |pieces|
  {
    if |pieces| == 1 {
      SplitNoSeparator(pieces[0], sep);
    } else {
      SplitPrefix(pieces[0], sep, Join(pieces[1..], sep));
      SplitJoin(pieces[1..], sep);
      assert [pieces[0]] + pieces[1..] == pieces;
    }
  }

  // ---------------------------------------------------------------------
  // Decimal digits

  predicate IsDigit(c: char) { '0' <= c <= '9' }

  function DigitChar(d: nat): (c: char)
    requires d < 10
    ensures IsDigit(c)
  {
    ['0', '1', '2', '3', '4', '5', '6', '7', '8', '9'][d]
  }

  function DigitValue(c: char): (d: nat)
    requires IsDigit(c)
    ensures d < 10
  {
    (c as int - '0' as int) as nat
  }

  /** `n.toString()` for a non-negative integer: no sign, no leading zero. */
  function ToDecimal(n: nat): (s: string)
    ensures |s| >= 1
    ensures forall i :: 0 <= i < |s| ==> IsDigit(s[i])
  {
    if n < 10 then [DigitChar(n)] else ToDecimal(n / 10) + [DigitChar(n % 10)]
  }

  /** The value of a string of decimal digits. */
  function ParseDecimal(s: string): nat
    requires forall i :: 0 <= i < |s| ==> IsDigit(s[i])
  {
    if s == [] then 0 else ParseDecimal(s[..|s| - 1]) * 10 + DigitValue(s[|s| - 1])
  }

  function Pow10(k: nat): (p: nat)
    ensures p >= 1
  {
    if k == 0 then 1 else 10 * Pow10(k - 1)
  }

  lemma DigitRoundTrip(d: nat)
    requires d < 10
    ensures DigitValue(DigitChar(d)) == d
  {
  }

  /** Printing and parsing a decimal give the number back. */
  lemma {:induction false} DecimalRoundTrip(n: nat)
    ensures ParseDecimal(ToDecimal(n)) == n
  {
    var s := ToDecimal(n);
    if n < 10 {
      DigitRoundTrip(n);
      assert s[..0] == [];
    } else {
      DecimalRoundTrip(n / 10);
      DigitRoundTrip(n % 10);
      assert s[..|s| - 1] == ToDecimal(n / 10);
    }
  }

  /** A number with k digits prints as k characters. */
  lemma {:induction false} DecimalLength(n: nat, k: nat)
    requires k >= 1 && Pow10(k - 1) <= n < Pow10(k)
    ensures |ToDecimal(n)| == k
  {
    assert Pow10(1) == 10;
    assert k >= 2 ==> Pow10(k - 1) == 10 * Pow10(k - 2);
    if n >= 10 {
      DecimalLength(n / 10, k - 1);
    }
  }
}

=== FILE: tables.dfy ===
/** Rows of a database table as a sequence, in the order the database
    returns them, and the two queries the services build on: `findOne`
    (the first row that matches) and `findAll` (every row that matches). */
module Tables {
  import opened Wrappers

  /** `findOne({ where })`: the position of the first row satisfying `p`. */
  function FirstIndex<T>(rows: seq<T>, p: T -> bool): (r: Option<nat>)
    ensures r.Some? ==> r.value < |rows| && p(rows[r.value])
    ensures r.Some? ==> forall j :: 0 <= j < r.value ==> !p(rows[j])
    ensures r.None? ==> forall j :: 0 <= j < |rows| ==> !p(rows[j])
  {
    if rows == [] then None
    else if p(rows[0]) then Some(0)
    else
      match FirstIndex(rows[1..], p)
      case None => None
      case Some(i) => Some(i + 1)
  }

  /** `findOne` returning the row itself. */
  function FindFirst<T(==)>(rows: seq<T>, p: T -> bool): (r: Option<T>)
    ensures r.Some? <==> exists j :: 0 <= j < |rows| && p(rows[j])
    ensures r.Some? ==> r.value in rows && p(r.value)
  {
    match FirstIndex(rows, p)
    case None => None
    case Some(i) => Some(rows[i])
  }

  /** `findAll({ where })`: the rows satisfying `p`, in table order. */
  function Filter<T(==)>(rows: seq<T>, p: T -> bool): (r: seq<T>)
    ensures |r| <= |rows|
    ensures forall i :: 0 <= i < |r| ==> r[i] in rows && p(r[i])
    ensures forall j :: 0 <= j < |rows| && p(rows[j]) ==> rows[j] in r
  {
    if rows == [] then []
    else if p(rows[0]) then [rows[0]] + Filter(rows[1..], p)
    else Filter(rows[1..], p)
  }

  /** `update(values, { where })`: every row satisfying `p` is rewritten by
      `f`, and the other rows, the row count and the order stay. */
  function UpdateWhere<T>(rows: seq<T>, p: T -> bool, f: T -> T): (r: seq<T>)
    ensures |r| == |rows|
    ensures forall i :: 0 <= i < |rows| ==> r[i] == if p(rows[i]) then f(rows[i]) else rows[i]
  {
    if rows == [] then []
    else [if p(rows[0]) then f(rows[0]) else rows[0]] + UpdateWhere(rows[1..], p, f)
  }

  lemma {:induction false} FilterAppend<T>(a: seq<T>, b: seq<T>, p: T -> bool)
    ensures Filter(a + b, p) == Filter(a, p) + Filter(b, p)
  {
    if a != [] {
      assert (a + b)[1..] == a[1..] + b;
      FilterAppend(a[1..], b, p);
      if p(a[0]) {
        assert Filter(a + b, p) == [a[0]] + Filter(a[1..] + b, p);
      }
    } else {
      assert a + b == b;
    }
  }

  /** A row and its complement: filtering on `p` and on `!p` splits the table. */
  lemma {:induction false} FilterPartition<T>(rows: seq<T>, p: T -> bool, q: T -> bool)
    requires forall j :: 0 <= j < |rows| ==> q(rows[j]) == !p(rows[j])
    ensures multiset(Filter(rows, p)) + multiset(Filter(rows, q)) == multiset(rows)
  {
    if rows != [] {
      FilterPartition(rows[1..], p, q);
      assert rows == [rows[0]] + rows[1..];
    }
  }

  /** Filtering keeps every row when every row matches. */
  lemma {:induction false} FilterAll<T>(rows: seq<T>, p: T -> bool)
    requires forall j :: 0 <= j < |rows| ==> p(rows[j])
    ensures Filter(rows, p) == rows
  {
    if rows != [] {
      FilterAll(rows[1..], p);
    }
  }

  /** Filtering drops every row when no row matches. */
  lemma {:induction false} FilterNone<T>(rows: seq<T>, p: T -> bool)
    requires forall j :: 0 <= j < |rows| ==> !p(rows[j])
    ensures Filter(rows, p) == []
  {
    if rows != [] {
      FilterNone(rows[1..], p);
    }
  }

  /** No two rows are equal. */
  predicate NoDuplicates<T(==)>(rows: seq<T>)
  {
    forall i, j :: 0 <= i < j < |rows| ==> rows[i] != rows[j]
  }

  /** A filter of a duplicate-free table is duplicate-free. */
  lemma {:induction false} FilterNoDuplicates<T>(rows: seq<T>, p: T -> bool)
    requires NoDuplicates(rows)
    ensures NoDuplicates(Filter(rows, p))
  {
    if rows != [] {
      FilterNoDuplicates(rows[1..], p);
      assert rows[0] !in rows[1..] by {
        forall j | 0 <= j < |rows[1..]| ensures rows[1..][j] != rows[0] {
          assert rows[1..][j] == rows[j + 1];
        }
      }
    }
  }
}

=== FILE: transaction.dfy ===
/** `TransactionService.runInTransaction` and the `@Transaction()` method
    decorator. The database is abstracted to its committed state `S`; a
    transaction handle sees a private copy of it (`view`), which becomes the
    committed state on commit and is dropped on rollback. As in the ORM, a
    handle can be finished once: committing or rolling back a handle that is
    already committed or rolled back throws. */
module Transaction {
  import opened Wrappers

  datatype TxState = Open | Committed | RolledBack

  /** How an operation closed the handle it was given, when it did so itself. */
  datatype TxEnd = CommittedByOperation | RolledBackByOperation

  /** What an operation run under a handle did: the database as the handle
      sees it afterwards, whether the operation itself committed or rolled
      back the handle, and how it returned. */
  datatype Step<S, T> = Step(after: S, closed: Option<TxEnd>, outcome: Result<T>)

  /** An argument of a decorated method: a caller's value, or the handle the
      decorator appends. */
  datatype Arg<A> = Value(value: A) | Handle(id: nat)

  const NotInjected := "TransactionService is not injected in the class"

  function StateName(s: TxState): string
  {
    match s
    case Open => "open"
    case Committed => "commit"
    case RolledBack => "rollback"
  }

  function CannotCommit(s: TxState): Failure
  {
    PlainError("Transaction cannot be committed because it has been finished with state: " + StateName(s))
  }

  function CannotRollBack(s: TxState): Failure
  {
    PlainError("Transaction cannot be rolled back because it has been finished with state: " + StateName(s))
  }

  /** What `runInTransaction` makes of an operation's step, started from the
      committed state `before`: the result it returns, the committed state it
      leaves and the state it leaves the handle in.
      - returned normally, handle left open: commit, result passed through;
      - threw, handle left open: roll back, the same error rethrown;
      - the operation finished the handle itself: the commit (or, after a
        throw, the rollback) on the finished handle throws, the catch block's
        rollback throws too, and that error is what the caller sees; what the
        operation committed stays committed. */
  ghost predicate Settled<S, T>(before: S, st: Step<S, T>, r: Result<T>, after: S, state: TxState)
  {
    match st.closed
    case None =>
      if st.outcome.Ok? then r == st.outcome && after == st.after && state == Committed
      else r == st.outcome && after == before && state == RolledBack
    case Some(CommittedByOperation) =>
      r == Err(CannotRollBack(Committed)) && after == st.after && state == Committed
    case Some(RolledBackByOperation) =>
      r == Err(CannotRollBack(RolledBack)) && after == before && state == RolledBack
  }

  /** The Sequelize instance behind `TransactionService`: the committed
      database and the number of handles opened so far. */
  class TransactionService<S> {
    var committed: S
    var handles: nat

    constructor (initial: S)
      ensures committed == initial && handles == 0
    {
      committed := initial;
      handles := 0;
    }

    /** `runInTransaction(operation)`: open a fresh handle, run the
        operation with it, commit on a normal return, roll back and rethrow
        on a throw. */
    method RunInTransaction<T>(operation: (nat, S) -> Step<S, T>) returns (r: Result<T>, tx: TxHandle<S>)
      modifies this
      ensures fresh(tx) && tx.id == old(handles) && handles == old(handles) + 1
      ensures Settled(old(committed), operation(tx.id, old(committed)), r, committed, tx.state)
    {
      tx := new TxHandle(handles, committed);
      handles := handles + 1;
      var st := operation(tx.id, tx.view);
      tx.view := st.after;
      match st.closed {
        case Some(CommittedByOperation) =>
          var _ := tx.Commit(this);
        case Some(RolledBackByOperation) =>
          var _ := tx.Rollback();
        case None =>
      }
      r := Finish(tx, st.outcome);
    }

    /** The end of `runInTransaction` once the operation has returned or
        thrown: commit and return the result, or, when the operation threw or
        the commit throws, roll back and throw. */
    method Finish<T>(tx: TxHandle<S>, outcome: Result<T>) returns (r: Result<T>)
      modifies this, tx
      ensures handles == old(handles) && tx.view == old(tx.view)
      ensures old(tx.state) == Open && outcome.Ok? ==>
                r == outcome && tx.state == Committed && committed == tx.view
      ensures old(tx.state) == Open && outcome.Err? ==>
                r == outcome && tx.state == RolledBack && committed == old(committed)
      ensures old(tx.state) != Open ==>
                r == Err(CannotRollBack(old(tx.state))) && tx.state == old(tx.state) && committed == old(committed)
    {
      if outcome.Ok? {
        var c := tx.Commit(this);
        if c.Ok? {
          r := outcome;
          return;
        }
        var commitError := c.error;
        var rb := tx.Rollback();
        r := if rb.Err? then Err(rb.error) else Err(commitError);
      } else {
        var rb := tx.Rollback();
        r := if rb.Err? then Err(rb.error) else outcome;
      }
    }
  }

  /** A transaction handle. */
  class TxHandle<S> {
    const id: nat
    var state: TxState
    var view: S

    constructor (id: nat, snapshot: S)
      ensures this.id == id && state == Open && view == snapshot
    {
      this.id := id;
      state := Open;
      view := snapshot;
    }

    method Commit(service: TransactionService<S>) returns (o: Result<()>)
      modifies this, service
      ensures view == old(view) && service.handles == old(service.handles)
      ensures old(state) == Open ==> o == Ok(()) && state == Committed && service.committed == view
      ensures old(state) != Open ==>
                o == Err(CannotCommit(old(state))) && state == old(state) && service.committed == old(service.committed)
    {
      if state == Open {
        service.committed := view;
        state := Committed;
        o := Ok(());
      } else {
        o := Err(CannotCommit(state));
      }
    }

    method Rollback() returns (o: Result<()>)
      modifies this
      ensures view == old(view)
      ensures old(state) == Open ==> o == Ok(()) && state == RolledBack
      ensures old(state) != Open ==> o == Err(CannotRollBack(old(state))) && state == old(state)
    {
      if state == Open {
        state := RolledBack;
        o := Ok(());
      } else {
        o := Err(CannotRollBack(state));
      }
    }
  }

  /** A method decorated with `@Transaction()`, called with `args`: with no
      `transactionService` on the instance it throws; otherwise the original
      method runs inside `runInTransaction` and receives the caller's
      arguments unchanged with the new handle appended as one more argument. */
  method Transactional<S, A, T>(
    service: TransactionService?<S>,
    args: seq<Arg<A>>,
    original: (seq<Arg<A>>, S) -> Step<S, T>
  ) returns (r: Result<T>)
    modifies service
    ensures service == null ==> r == Err(PlainError(NotInjected))
    ensures service != null ==>
              && service.handles == old(service.handles) + 1
              && exists state: TxState ::
                   Settled(old(service.committed), original(args + [Handle(old(service.handles))], old(service.committed)),
                           r, service.committed, state)
  {
    if service == null {
      r := Err(PlainError(NotInjected));
      return;
    }
    var tx;
    r, tx := service.RunInTransaction((id: nat, s: S) => original(args + [Handle(id)], s));
  }
}

=== FILE: user_controller.dfy ===
/** `UserController`: sign-up, the profile read, password change, account
    removal, the login-id lookup by address and e-mail registration. `req.user`
    of a guarded route is the claims of the verified access token. */
module UserController {
  import opened Wrappers
  import opened Users
  import opened Crypto
  import opened Http
  import opened UserRules
  import Auth = AuthService
  import opened UserService
  import opened EmailRepository
  import opened Tables

  const Error := "ERROR"
  /** Stands for the (Korean) message "e-mail verification complete". */
  const EmailRegistered := "e-mail verification complete"

  /** The fields of a sign-up request body that are columns of the `User`
      table. No validation pipe strips unknown keys, so besides the declared
      fields the client may send `isAdmin`, `email`, `verificationCode` and
      `isVerified`, each absent when it did not. */
  datatype CreateUserBody = CreateUserBody(
    userId: string,
    password: string,
    displayName: string,
    isAdmin: Option<bool>,
    profile: Option<string>,
    email: Option<string>,
    verificationCode: Option<string>,
    isVerified: Option<bool>)

  /** The object `create` hands to `createUser`: a copy of the body, with
      `profile` replaced by the upload's address when a file came with it,
      and `isAdmin` set to false; every other key passes through. */
  function CreateUserOf(body: CreateUserBody, uploadedProfile: Option<string>): (n: NewUser)
    ensures !n.isAdmin
    ensures n.userId == body.userId && n.password == body.password && n.displayName == body.displayName
    ensures n.profile == if uploadedProfile.Some? then uploadedProfile else body.profile
    ensures n.email == body.email && n.verificationCode == body.verificationCode && n.isVerified == body.isVerified
  {
    NewUser(body.userId, body.password, body.displayName, false,
            if uploadedProfile.Some? then uploadedProfile else body.profile,
            body.email, body.verificationCode, body.isVerified)
  }

  /** A sign-up body that names an address and `isVerified: true` stores a
      verified address, with no code ever checked for it. */
  lemma SignUpCanVerifyEmail(body: CreateUserBody, uploadedProfile: Option<string>, id: nat, hash: string)
    requires body.email.Some? && body.isVerified == Some(true)
    ensures var stored := RowOf(id, CreateUserOf(body, uploadedProfile).(password := hash));
            stored.email == body.email && stored.isVerified && !stored.isAdmin
  {
  }

  /** `info` of `findOne`: the row without `password`. */
  datatype UserInfo = UserInfo(
    id: nat,
    isAdmin: bool,
    userId: string,
    displayName: string,
    profile: Option<string>,
    email: Option<string>,
    verificationCode: Option<string>,
    isVerified: bool)

  /** A user row built from a reply and a password. */
  function WithPassword(info: UserInfo, password: string): User
  {
    User(info.id, info.userId, password, info.displayName, info.isAdmin, info.profile, info.email, info.verificationCode, info.isVerified)
  }

  /** The reply is the row with only its password taken out: putting the
      password back gives the row. */
  function InfoOf(u: User): (info: UserInfo)
    ensures WithPassword(info, u.password) == u
  {
    UserInfo(u.id, u.isAdmin, u.userId, u.displayName, u.profile, u.email, u.verificationCode, u.isVerified)
  }

  /** `findOne(req, res)`: the signed-in user's row without its password;
      an unknown login id is `getByUserId`'s Unauthorized. */
  function FindOne(users: UserTable, payload: Claims): (r: Result<UserInfo>)
    reads users
    ensures r.Ok? <==> GetByUserId(users, payload.userId).Ok?
    ensures r.Ok? ==> r.value == InfoOf(GetByUserId(users, payload.userId).value)
    ensures r.Err? ==> r.error == Unauthorized(NoAccess)
  {
    match GetByUserId(users, payload.userId)
    case Err(e) => Err(e)
    case Ok(user) => Ok(InfoOf(user))
  }

  /** The `info` answer does not depend on the stored password: rows that
      differ only there give the same answer. */
  lemma InfoHidesPassword(u: User, password: string)
    ensures InfoOf(u.(password := password)) == InfoOf(u)
  {
  }

  /** The answer of `getUserId`: ERROR, or the user's `name` (not a column
      of the table, so always absent) and the masked login id. */
  datatype FindUserIdReply = NoSuchUser | FoundUser(name: Option<string>, userId: string)

  /** `getUserId({ email })` as written: it calls `findByCriteria`, which
      `UserRepository` does not define, so every call throws a TypeError. */
  function GetUserIdAsWritten(users: UserTable, email: string): (r: Result<FindUserIdReply>)
    ensures r == Err(PlainError(TypeErrorMessage))
  {
    Err(PlainError(TypeErrorMessage))
  }

  /** `getUserId({ email })` as evidently intended: ERROR when no user has
      the address, else the masked login id of the user who has it. */
  function GetUserId(users: UserTable, email: string): (r: Result<FindUserIdReply>)
    reads users
    ensures r.Ok?
    ensures r.value == NoSuchUser <==> !exists i :: 0 <= i < |users.rows| && users.rows[i].email == Some(email)
    ensures r.value.FoundUser? ==>
              && r.value.name.None?
              && exists i :: 0 <= i < |users.rows| && users.rows[i].email == Some(email)
                             && r.value.userId == MaskUserId(users.rows[i].userId)
  {
    match users.FindByEmail(email)
    case None => Ok(NoSuchUser)
    case Some(user) => Ok(FoundUser(None, MaskUserId(user.userId)))
  }

  /** A registered address gets its masked login id as intended, and a
      TypeError as written. */
  lemma GetUserIdDiscrepancy(users: UserTable, u: User)
    requires u in users.rows && u.email.Some?
    ensures GetUserId(users, u.email.value).value.FoundUser?
    ensures GetUserIdAsWritten(users, u.email.value).Err?
  {
    var i :| 0 <= i < |users.rows| && users.rows[i] == u;
  }

  class UserController {
    const service: UserService
    const production: bool

    constructor (service: UserService, production: bool)
      ensures this.service == service && this.production == production
    {
      this.service := service;
      this.production := production;
    }

    /** `create(createUserDto, file, res)`: the row is created as a
        non-admin whatever the body says; on success both token cookies are
        set (one hour and seven days); every failure of `createUser` becomes
        InternalServerError with nothing stored and no cookie written. */
    method Create(body: CreateUserBody, uploadedProfile: Option<string>, res: Response, now: int) returns (r: Result<()>)
      requires service.users.Valid()
      modifies service.users, res
      ensures service.users.Valid()
      ensures var n := CreateUserOf(body, uploadedProfile);
              var refused := old(service.users.FindByUserId(n.userId)).Some?
                             || old(service.users.FindByDisplayName(n.displayName)).Some?
                             || |n.password| < MinPasswordLength;
              && (refused ==> r == Err(InternalServerError(Error)) && unchanged(service.users) && unchanged(res))
              && (!refused ==>
                    var stored := RowOf(old(service.users.nextId), n.(password := service.hasher.hash(n.password, BcryptCost)));
                    var t := Auth.Login(service.jwt, service.env, Auth.SubjectOfRow(stored), now);
                    && r == Ok(())
                    && service.users.rows == old(service.users.rows) + [stored]
                    && res.jar == old(res.jar)[AccessTokenCookie := Set(t.accessToken, TokenCookie(AccessMaxAgeMs, production))]
                                             [RefreshTokenCookie := Set(t.refreshToken, TokenCookie(RefreshMaxAgeMs, production))]
                    && res.status == Some(200))
    {
      var createUser := CreateUserOf(body, uploadedProfile);
      var token := service.CreateUser(createUser, now);
      if token.Err? {
        r := Err(InternalServerError(Error));
        return;
      }
      res.SetCookie(AccessTokenCookie, token.value.accessToken, TokenCookie(AccessMaxAgeMs, production));
      res.SetCookie(RefreshTokenCookie, token.value.refreshToken, TokenCookie(RefreshMaxAgeMs, production));
      res.Send(200, map["result" := "SUCCESS", "message" := "login successful"]);
      r := Ok(());
    }

    /** `updatePassword(updatePassword, req, res)`: the signed-in user's
        password is replaced by the hash of the new one (six characters at
        least, else Unauthorized) and both token cookies are cleared. */
    method UpdatePassword(payload: Claims, password: string, res: Response) returns (r: Result<()>)
      requires service.users.Valid()
      modifies service.users, res
      ensures service.users.Valid()
      ensures old(GetByUserId(service.users, payload.userId)).Err? ==>
                r == Err(Unauthorized(NoAccess)) && unchanged(service.users) && unchanged(res)
      ensures old(GetByUserId(service.users, payload.userId)).Ok? && |password| < MinPasswordLength ==>
                r == Err(Unauthorized(PasswordTooShort)) && unchanged(service.users) && unchanged(res)
      ensures old(GetByUserId(service.users, payload.userId)).Ok? && |password| >= MinPasswordLength ==>
                && r == Ok(())
                && service.users.rows == UpdateWhereId(old(service.users.rows), old(GetByUserId(service.users, payload.userId)).value.id,
                                                        UserPatch(Some(service.hasher.hash(password, BcryptCost)), None, None, None))
                && res.jar == old(res.jar)[AccessTokenCookie := Cleared][RefreshTokenCookie := Cleared]
                && res.status == Some(200)
    {
      var user := GetByUserId(service.users, payload.userId);
      if user.Err? {
        r := Err(user.error);
        return;
      }
      var newPassword := HashPassword(service.hasher, password);
      if newPassword.Err? {
        r := Err(newPassword.error);
        return;
      }
      service.users.Update(user.value.id, UserPatch(Some(newPassword.value), None, None, None));
      res.ClearCookie(AccessTokenCookie);
      res.ClearCookie(RefreshTokenCookie);
      res.Send(200, map["result" := "SUCCESS"]);
      r := Ok(());
    }

    /** `remove(req, res)`: the signed-in user's row is deleted and both
        token cookies are cleared. */
    method Remove(payload: Claims, res: Response) returns (r: Result<()>)
      requires service.users.Valid()
      modifies service.users, res
      ensures service.users.Valid()
      ensures old(GetByUserId(service.users, payload.userId)).Err? ==>
                r == Err(Unauthorized(NoAccess)) && unchanged(service.users) && unchanged(res)
      ensures old(GetByUserId(service.users, payload.userId)).Ok? ==>
                var id := old(GetByUserId(service.users, payload.userId)).value.id;
                && r == Ok(())
                && service.users.rows == Filter(old(service.users.rows), (u: User) => u.id != id)
                && GetByUserId(service.users, payload.userId).Err?
                && res.jar == old(res.jar)[AccessTokenCookie := Cleared][RefreshTokenCookie := Cleared]
                && res.status == Some(200)
    {
      var user := GetByUserId(service.users, payload.userId);
      if user.Err? {
        r := Err(user.error);
        return;
      }
      ghost var before := service.users.rows;
      service.users.Remove(user.value.id);
      RemovedUserIsGone(before, service.users.nextId, user.value);
      res.ClearCookie(AccessTokenCookie);
      res.ClearCookie(RefreshTokenCookie);
      res.Send(200, map["result" := "SUCCESS"]);
      r := Ok(());
    }

    /** `email(req, res, email)`: a message from `registerEmail` becomes a
        Conflict carrying it; anything else answers 200 SUCCESS. */
    method Email(payload: Claims, email: string, res: Response, now: int) returns (r: Result<()>)
      requires service.users.Valid()
      modifies service.users, service.emails, res
      ensures service.users.Valid()
      ensures old(service.emails.FindEmail(email, now)).None? ==>
                r == Err(Conflict(UnverifiedEmail)) && unchanged(service.users) && unchanged(service.emails)
      ensures old(service.emails.FindEmail(email, now)).Some? && old(service.users.FindById(payload.sub)).None? ==>
                r == Err(Conflict(UserNotFound)) && unchanged(service.users) && unchanged(service.emails)
      ensures old(service.emails.FindEmail(email, now)).Some? && old(service.users.FindById(payload.sub)).Some? ==>
                && r == Ok(())
                && service.users.rows == UpdateWhereId(old(service.users.rows), payload.sub, UserPatch(None, Some(email), None, None))
                && service.emails.rows == WithoutEmail(old(service.emails.rows), email)
                && res.status == Some(200)
      ensures r.Err? ==> unchanged(res)
      ensures res.jar == old(res.jar)
    {
      var result := service.RegisterEmail(email, payload.sub, now);
      if result.Refused? {
        r := Err(Conflict(result.message));
        return;
      }
      res.Send(200, map["result" := "SUCCESS", "message" := EmailRegistered]);
      r := Ok(());
    }
  }

  /** After the row of a user is deleted, no row has that user's login id:
      login ids are unique. */
  lemma RemovedUserIsGone(rows: seq<User>, nextId: nat, u: User)
    requires WellFormed(rows, nextId) && u in rows
    ensures var kept := Filter(rows, (v: User) => v.id != u.id);
            forall i :: 0 <= i < |kept| ==> kept[i].userId != u.userId
  {
    var kept := Filter(rows, (v: User) => v.id != u.id);
    forall i | 0 <= i < |kept| ensures kept[i].userId != u.userId {
      var j :| 0 <= j < |rows| && rows[j] == kept[i];
      var k :| 0 <= k < |rows| && rows[k] == u;
      assert j != k;
    }
  }
}

=== FILE: user_rules.dfy ===
/** The parts of `UserService` that `AuthService` calls back into:
    `getByUserId`, `comparePassword`, `hashPassword` and `maskUserId`. They
    are kept apart from the rest of `UserService` so that the two services,
    which inject each other, can be modelled one after the other. */
module UserRules {
  import opened Wrappers
  import opened Users
  import opened Crypto

  const MinPasswordLength := 6
  const BcryptCost := 10

  /** Stands for the (Korean) message "user without access rights". */
  const NoAccess := "user has no access"
  /** Stands for the (Korean) message "password must be at least 6 characters". */
  const PasswordTooShort := "password must be at least 6 characters"

  /** `getByUserId(userId)`: the row with that login id, or Unauthorized. */
  function GetByUserId(users: UserTable, userId: string): (r: Result<User>)
    reads users
    ensures r.Ok? <==> exists i :: 0 <= i < |users.rows| && users.rows[i].userId == userId
    ensures r.Ok? ==> r.value in users.rows && r.value.userId == userId
    ensures r.Err? ==> r.error == Unauthorized(NoAccess)
  {
    match users.FindByUserId(userId)
    case None => Err(Unauthorized(NoAccess))
    case Some(u) => Ok(u)
  }

  /** `comparePassword(existingPassword, password)`: bcrypt's `compare`
      with the plaintext first and the stored hash second, so a stored hash
      of the password compares true. */
  function ComparePassword(h: Hasher, existingPassword: string, password: string): (b: bool)
    ensures Matches(h) && existingPassword == h.hash(password, BcryptCost) ==> b
  {
    h.compare(password, existingPassword)
  }

  /** `hashPassword(password)`: fewer than six characters is refused with
      Unauthorized; otherwise the bcrypt hash with cost 10. */
  function HashPassword(h: Hasher, password: string): (r: Result<string>)
    ensures r.Ok? <==> |password| >= MinPasswordLength
    ensures r.Ok? ==> r.value == h.hash(password, BcryptCost)
    ensures r.Err? ==> r.error == Unauthorized(PasswordTooShort)
  {
    if |password| < MinPasswordLength then Err(Unauthorized(PasswordTooShort))
    else Ok(h.hash(password, BcryptCost))
  }

  /** A password accepted by `hashPassword` compares equal to the hash it
      produced, so it can log in afterwards. */
  lemma HashedPasswordVerifies(h: Hasher, password: string)
    requires Matches(h)
    requires |password| >= MinPasswordLength
    ensures HashPassword(h, password).Ok?
    ensures ComparePassword(h, HashPassword(h, password).value, password)
  {
    assert h.compare(password, h.hash(password, BcryptCost));
  }

  function Stars(n: nat): (s: string)
    ensures |s| == n && forall i :: 0 <= i < n ==> s[i] == '*'
  {
    if n == 0 then [] else Stars(n - 1) + ['*']
  }

  /** `maskUserId(userId)`: at most three characters are shown as they are;
      a longer id keeps its first two characters and its last one, and every
      character in between becomes '*'. */
  function MaskUserId(userId: string): (r: string)
    ensures |r| == |userId|
    ensures |userId| <= 3 ==> r == userId
    ensures |userId| > 3 ==>
              && r[0] == userId[0] && r[1] == userId[1] && r[|r| - 1] == userId[|userId| - 1]
              && forall i :: 2 <= i < |r| - 1 ==> r[i] == '*'
  {
    if |userId| <= 3 then userId
    else userId[..2] + Stars(|userId| - 3) + [userId[|userId| - 1]]
  }

  /** Masking a masked id changes nothing. */
  lemma MaskIdempotent(userId: string)
    ensures MaskUserId(MaskUserId(userId)) == MaskUserId(userId)
  {
    var m := MaskUserId(userId);
    var mm := MaskUserId(m);
    if |userId| > 3 {
      assert forall i :: 0 <= i < |m| ==> mm[i] == m[i];
    }
  }

  /** Two ids of the same length that agree on their first two and last
      characters mask to the same string: nothing else about the id shows. */
  lemma MaskHidesMiddle(a: string, b: string)
    requires |a| == |b| > 3
    requires a[0] == b[0] && a[1] == b[1] && a[|a| - 1] == b[|b| - 1]
    ensures MaskUserId(a) == MaskUserId(b)
  {
    var ma := MaskUserId(a);
    var mb := MaskUserId(b);
    assert forall i :: 0 <= i < |ma| ==> ma[i] == mb[i];
  }
}

=== FILE: user_service.dfy ===
/** `UserService`: registration, e-mail registration, lookup by address and
    the code-based password reset. The lookups it shares with `AuthService`
    are in `UserRules`. */
module UserService {
  import opened Wrappers
  import opened Users
  import opened Crypto
  import opened UserRules
  import opened AuthService
  import opened EmailRepository

  /** Stands for the (Korean) message "user already registered". */
  const DuplicateUser := "user already registered"
  /** Stands for the (Korean) message "nickname already registered". */
  const DuplicateNickname := "nickname already registered"
  /** Stands for the (Korean) message "e-mail address not verified". */
  const UnverifiedEmail := "e-mail address not verified"
  /** Stands for the (Korean) message "user not found". */
  const UserNotFound := "user not found"
  /** Stands for the (Korean) message "invalid verification number". */
  const InvalidCode := "invalid verification number"
  const Success := "SUCCESS"

  /** What `registerEmail` returns: a message string, or the (empty) result
      of the update. */
  datatype Registration = Refused(message: string) | Registered

  /** The update payload `resetPassword` passes as written: the hash string
      itself, which names no column, so nothing is written. */
  function ResetPatchAsWritten(hashedPassword: string): UserPatch
  {
    NoColumns
  }

  /** The update payload evidently intended: the new hash in `password`. */
  function ResetPatch(hashedPassword: string): UserPatch
  {
    UserPatch(Some(hashedPassword), None, None, None)
  }

  /** As written, the reset leaves every password as it was. */
  lemma ResetAsWrittenKeepsPassword(rows: seq<User>, id: nat, hashedPassword: string)
    ensures UpdateWhereId(rows, id, ResetPatchAsWritten(hashedPassword)) == rows
  {
    EmptyPatchChangesNothing(rows, id);
  }

  /** As intended, the reset writes the hash into the user's row and into no
      other, and changes nothing else in it. */
  lemma ResetPatchSetsPassword(rows: seq<User>, id: nat, hashedPassword: string)
    ensures var after := UpdateWhereId(rows, id, ResetPatch(hashedPassword));
            forall i :: 0 <= i < |rows| ==>
              if rows[i].id == id then after[i] == rows[i].(password := hashedPassword)
              else after[i] == rows[i]
  {
  }

  /** `findUserByEmail(email)` as written: it calls `findByCriteria`, which
      `UserRepository` does not define, so every call throws a TypeError. */
  function FindUserByEmailAsWritten(users: UserTable, email: string): (r: Result<User>)
    ensures r == Err(PlainError(TypeErrorMessage))
  {
    Err(PlainError(TypeErrorMessage))
  }

  /** `findUserByEmail(email)` as evidently intended: the user with that
      address, or NotFound. */
  function FindUserByEmail(users: UserTable, email: string): (r: Result<User>)
    reads users
    ensures r.Ok? <==> exists i :: 0 <= i < |users.rows| && users.rows[i].email == Some(email)
    ensures r.Ok? ==> r.value in users.rows && r.value.email == Some(email)
    ensures r.Err? ==> r.error == NotFound(UserNotFound)
  {
    match users.FindByEmail(email)
    case None => Err(NotFound(UserNotFound))
    case Some(u) => Ok(u)
  }

  /** A registered address is found as intended, but not as written. */
  lemma FindUserByEmailDiscrepancy(users: UserTable, u: User)
    requires u in users.rows && u.email.Some?
    ensures FindUserByEmail(users, u.email.value).Ok?
    ensures FindUserByEmailAsWritten(users, u.email.value).Err?
  {
    var i :| 0 <= i < |users.rows| && users.rows[i] == u;
  }

  /** The row found by login id after an update of the row with that id is
      the updated row: login ids are unique and updates keep them. */
  lemma {:induction false} FindAfterUpdate(rows: seq<User>, nextId: nat, u: User, p: UserPatch, j: nat)
    requires WellFormed(rows, nextId)
    requires j < |rows| && rows[j] == u
    ensures j < |UpdateWhereId(rows, u.id, p)|
    ensures UpdateWhereId(rows, u.id, p)[j] == Apply(u, p)
    ensures forall k :: 0 <= k < |rows| && k != j ==> UpdateWhereId(rows, u.id, p)[k].userId != u.userId
  {
    var after := UpdateWhereId(rows, u.id, p);
    forall k | 0 <= k < |rows| && k != j
      ensures after[k].userId != u.userId
    {
      assert rows[k].userId != rows[j].userId;
      assert after[k].userId == rows[k].userId;
    }
  }

  class UserService {
    const users: UserTable
    const emails: EmailTable
    const hasher: Hasher
    const jwt: Jwt
    const env: Env

    constructor (users: UserTable, emails: EmailTable, hasher: Hasher, jwt: Jwt, env: Env)
      ensures this.users == users && this.emails == emails
      ensures this.hasher == hasher && this.jwt == jwt && this.env == env
    {
      this.users := users;
      this.emails := emails;
      this.hasher := hasher;
      this.jwt := jwt;
      this.env := env;
    }

    /** `createUser(userDto)`: a taken login id or a taken display name is a
        Conflict, a short password Unauthorized, each with nothing stored;
        otherwise the row is stored with the bcrypt hash in place of the
        password and the new user is logged in. */
    method CreateUser(dto: NewUser, now: int) returns (r: Result<TokenPair>)
      requires users.Valid()
      modifies users
      ensures users.Valid()
      ensures old(users.FindByUserId(dto.userId)).Some? ==>
                r == Err(Conflict(DuplicateUser)) && unchanged(users)
      ensures old(users.FindByUserId(dto.userId)).None? && old(users.FindByDisplayName(dto.displayName)).Some? ==>
                r == Err(Conflict(DuplicateNickname)) && unchanged(users)
      ensures old(users.FindByUserId(dto.userId)).None? && old(users.FindByDisplayName(dto.displayName)).None? ==>
                if |dto.password| < MinPasswordLength then
                  r == Err(Unauthorized(PasswordTooShort)) && unchanged(users)
                else
                  var stored := RowOf(old(users.nextId), dto.(password := hasher.hash(dto.password, BcryptCost)));
                  && users.rows == old(users.rows) + [stored]
                  && r == Ok(Login(jwt, env, SubjectOfRow(stored), now))
    {
      var duplicatedUser := users.FindByUserId(dto.userId);
      if duplicatedUser.Some? {
        r := Err(Conflict(DuplicateUser));
        return;
      }
      var nicknameValid := users.FindByDisplayName(dto.displayName);
      if nicknameValid.Some? {
        r := Err(Conflict(DuplicateNickname));
        return;
      }
      var hashed := HashPassword(hasher, dto.password);
      if hashed.Err? {
        r := Err(hashed.error);
        return;
      }
      var user := users.Insert(dto.(password := hashed.value));
      r := Ok(Login(jwt, env, SubjectOfRow(user), now));
    }

    /** `registerEmail(email, id)`: with a live code record for the address
        (whatever its code) and a user with that id, the address is written
        to the user and every code record for it is deleted; otherwise a
        message is returned and nothing changes. */
    method RegisterEmail(email: string, id: nat, now: int) returns (r: Registration)
      requires users.Valid()
      modifies users, emails
      ensures users.Valid()
      ensures old(emails.FindEmail(email, now)).None? ==>
                r == Refused(UnverifiedEmail) && unchanged(users) && unchanged(emails)
      ensures old(emails.FindEmail(email, now)).Some? && old(users.FindById(id)).None? ==>
                r == Refused(UserNotFound) && unchanged(users) && unchanged(emails)
      ensures old(emails.FindEmail(email, now)).Some? && old(users.FindById(id)).Some? ==>
                && r == Registered
                && users.rows == UpdateWhereId(old(users.rows), id, UserPatch(None, Some(email), None, None))
                && emails.rows == WithoutEmail(old(emails.rows), email)
                && emails.FindEmail(email, now).None?
    {
      var emailRecord := emails.FindEmail(email, now);
      if emailRecord.None? {
        r := Refused(UnverifiedEmail);
        return;
      }
      var user := users.FindById(id);
      if user.None? {
        r := Refused(UserNotFound);
        return;
      }
      users.Update(user.value.id, UserPatch(None, Some(email), None, None));
      emails.DeleteEmail(email);
      NoneLiveAfterDelete(old(emails.rows), email, now);
      r := Registered;
    }

    /** The checks `resetPassword(code, userId, newPassword)` makes before it
        writes: the user must exist (Unauthorized), a live record for the
        user's address must hold `code` (BadRequest), and the new password
        must pass the length rule (Unauthorized). The hash on success. */
    function ResetChecks(code: string, userId: string, newPassword: string, now: int): (r: Result<(User, string)>)
      reads this, users, emails
      ensures GetByUserId(users, userId).Err? ==> r == Err(GetByUserId(users, userId).error)
      ensures GetByUserId(users, userId).Ok? ==>
                var u := GetByUserId(users, userId).value;
                var record := if u.email.None? then None else emails.FindEmail(u.email.value, now);
                if record.None? || record.value.authCode != code then r == Err(BadRequest(InvalidCode))
                else if |newPassword| < MinPasswordLength then r == Err(Unauthorized(PasswordTooShort))
                else r == Ok((u, hasher.hash(newPassword, BcryptCost)))
    {
      match GetByUserId(users, userId)
      case Err(e) => Err(e)
      case Ok(u) =>
        // `findEmail(null)` matches no row
        var emailRecord := if u.email.None? then None else emails.FindEmail(u.email.value, now);
        if emailRecord.None? || emailRecord.value.authCode != code then Err(BadRequest(InvalidCode))
        else
          match HashPassword(hasher, newPassword)
          case Err(e) => Err(e)
          case Ok(h) => Ok((u, h))
    }

    /** `resetPassword(code, userId, newPassword)` as written: after the
        checks it updates the user with the hash string as the payload, which
        writes no column, deletes the code records and reports SUCCESS. */
    method ResetPasswordAsWritten(code: string, userId: string, newPassword: string, now: int) returns (r: Result<string>)
      requires users.Valid()
      modifies users, emails
      ensures users.Valid()
      ensures old(ResetChecks(code, userId, newPassword, now)).Err? ==>
                r == Err(old(ResetChecks(code, userId, newPassword, now)).error) && unchanged(users) && unchanged(emails)
      ensures old(ResetChecks(code, userId, newPassword, now)).Ok? ==>
                && r == Ok(Success)
                && users.rows == old(users.rows)
                && emails.rows == WithoutEmail(old(emails.rows), old(ResetChecks(code, userId, newPassword, now)).value.0.email.value)
    {
      var checked := ResetChecks(code, userId, newPassword, now);
      if checked.Err? {
        r := Err(checked.error);
        return;
      }
      var (user, hashedPassword) := checked.value;
      users.Update(user.id, ResetPatchAsWritten(hashedPassword));
      ResetAsWrittenKeepsPassword(old(users.rows), user.id, hashedPassword);
      emails.DeleteEmail(user.email.value);
      r := Ok(Success);
    }

    /** `resetPassword(code, userId, newPassword)` as evidently intended:
        the same checks, then the new hash is stored for the user, the code
        records for the address are deleted and SUCCESS is returned; the
        user now logs in with the new password. */
    method ResetPassword(code: string, userId: string, newPassword: string, now: int) returns (r: Result<string>)
      requires users.Valid()
      modifies users, emails
      ensures users.Valid()
      ensures old(ResetChecks(code, userId, newPassword, now)).Err? ==>
                r == Err(old(ResetChecks(code, userId, newPassword, now)).error) && unchanged(users) && unchanged(emails)
      ensures old(ResetChecks(code, userId, newPassword, now)).Ok? ==>
                var u := old(ResetChecks(code, userId, newPassword, now)).value.0;
                && r == Ok(Success)
                && users.rows == UpdateWhereId(old(users.rows), u.id, ResetPatch(hasher.hash(newPassword, BcryptCost)))
                && emails.rows == WithoutEmail(old(emails.rows), u.email.value)
                && GetByUserId(users, userId) == Ok(u.(password := hasher.hash(newPassword, BcryptCost)))
    {
      var checked := ResetChecks(code, userId, newPassword, now);
      if checked.Err? {
        r := Err(checked.error);
        return;
      }
      var (user, hashedPassword) := checked.value;
      var j := FirstIndexOfUser(users.rows, userId);
      FindAfterUpdate(users.rows, users.nextId, user, ResetPatch(hashedPassword), j);
      users.Update(user.id, ResetPatch(hashedPassword));
      assert users.rows[j] == user.(password := hashedPassword);
      emails.DeleteEmail(user.email.value);
      r := Ok(Success);
    }
  }

  /** The position of the row `FindByUserId` returns. */
  lemma FirstIndexOfUser(rows: seq<User>, userId: string) returns (j: nat)
    requires exists i :: 0 <= i < |rows| && rows[i].userId == userId
    ensures j < |rows| && rows[j].userId == userId
  {
    j :| 0 <= j < |rows| && rows[j].userId == userId;
  }
}

=== FILE: users.dfy ===
/** The `User` table, as the services read and write it through the ORM:
    lookups by primary key and by column, insertion with an auto-increment
    id, update of some columns of the row with a given id, and deletion. */
module Users {
  import opened Wrappers
  import opened Tables

  /** A row of the `User` table. `password` holds the bcrypt hash. */
  datatype User = User(
    id: nat,
    userId: string,
    password: string,
    displayName: string,
    isAdmin: bool,
    profile: Option<string>,
    email: Option<string>,
    verificationCode: Option<string>,
    isVerified: bool)

  /** The columns an insertion supplies; the table assigns `id`. Nothing
      strips the optional columns a sign-up body carries, so `email`,
      `verificationCode` and `isVerified` are whatever the client sent, and
      absent when it sent nothing. */
  datatype NewUser = NewUser(
    userId: string,
    password: string,
    displayName: string,
    isAdmin: bool,
    profile: Option<string>,
    email: Option<string>,
    verificationCode: Option<string>,
    isVerified: Option<bool>)

  /** The row `create` stores under `id`: every supplied column as given,
      and `isVerified` at its default, false, when it was not supplied. */
  function RowOf(id: nat, n: NewUser): (u: User)
    ensures u.id == id && u.userId == n.userId && u.password == n.password && u.displayName == n.displayName
    ensures u.isAdmin == n.isAdmin && u.profile == n.profile && u.email == n.email && u.verificationCode == n.verificationCode
    ensures u.isVerified <==> n.isVerified == Some(true)
  {
    User(id, n.userId, n.password, n.displayName, n.isAdmin, n.profile, n.email, n.verificationCode, n.isVerified.GetOr(false))
  }

  /** The columns an update writes; absent means left as it is. None of the
      unique or key columns can be updated this way. */
  datatype UserPatch = UserPatch(
    password: Option<string>,
    email: Option<string>,
    verificationCode: Option<Option<string>>,
    isVerified: Option<bool>)

  const NoColumns := UserPatch(None, None, None, None)

  function Apply(u: User, p: UserPatch): (v: User)
    ensures v.id == u.id && v.userId == u.userId && v.displayName == u.displayName && v.isAdmin == u.isAdmin
  {
    u.(password := p.password.GetOr(u.password),
       email := if p.email.Some? then p.email else u.email,
       verificationCode := p.verificationCode.GetOr(u.verificationCode),
       isVerified := p.isVerified.GetOr(u.isVerified))
  }

  /** `update(patch, { where: { id } })` on the rows of the table. */
  function UpdateWhereId(rows: seq<User>, id: nat, p: UserPatch): (r: seq<User>)
    ensures |r| == |rows|
    ensures forall i :: 0 <= i < |rows| ==> r[i] == if rows[i].id == id then Apply(rows[i], p) else rows[i]
  {
    UpdateWhere(rows, (u: User) => u.id == id, (u: User) => Apply(u, p))
  }

  /** An update that writes no column leaves every row as it was. */
  lemma EmptyPatchChangesNothing(rows: seq<User>, id: nat)
    ensures UpdateWhereId(rows, id, NoColumns) == rows
  {
    forall i | 0 <= i < |rows| ensures Apply(rows[i], NoColumns) == rows[i] { }
  }

  /** The table invariant: ids are below the next auto-increment value, and
      no two rows share an id or a login id (the column declared unique).
      Display names carry no such constraint. */
  ghost predicate WellFormed(rows: seq<User>, nextId: nat)
  {
    && (forall i :: 0 <= i < |rows| ==> rows[i].id < nextId)
    && (forall i, j :: 0 <= i < j < |rows| ==>
          rows[i].id != rows[j].id && rows[i].userId != rows[j].userId)
  }

  class UserTable {
    var rows: seq<User>
    var nextId: nat

    ghost predicate Valid()
      reads this
    {
      WellFormed(rows, nextId)
    }

    constructor ()
      ensures rows == [] && Valid()
    {
      rows := [];
      nextId := 1;
    }

    /** `findByPk(id)`. */
    function FindById(id: nat): (r: Option<User>)
      reads this
      ensures r.Some? <==> exists i :: 0 <= i < |rows| && rows[i].id == id
      ensures r.Some? ==> r.value in rows && r.value.id == id
    {
      FindFirst(rows, (u: User) => u.id == id)
    }

    /** `findOne({ where: { userId } })`. */
    function FindByUserId(userId: string): (r: Option<User>)
      reads this
      ensures r.Some? <==> exists i :: 0 <= i < |rows| && rows[i].userId == userId
      ensures r.Some? ==> r.value in rows && r.value.userId == userId
    {
      FindFirst(rows, (u: User) => u.userId == userId)
    }

    /** `findOne({ where: { displayName } })`. */
    function FindByDisplayName(displayName: string): (r: Option<User>)
      reads this
      ensures r.Some? <==> exists i :: 0 <= i < |rows| && rows[i].displayName == displayName
      ensures r.Some? ==> r.value in rows && r.value.displayName == displayName
    {
      FindFirst(rows, (u: User) => u.displayName == displayName)
    }

    /** `findOne({ where: { email } })`. */
    function FindByEmail(email: string): (r: Option<User>)
      reads this
      ensures r.Some? <==> exists i :: 0 <= i < |rows| && rows[i].email == Some(email)
      ensures r.Some? ==> r.value in rows && r.value.email == Some(email)
    {
      FindFirst(rows, (u: User) => u.email == Some(email))
    }

    /** `create(user)`: a new row with the next auto-increment id and the
        columns supplied. */
    method Insert(n: NewUser) returns (u: User)
      requires Valid()
      requires FindByUserId(n.userId).None?
      modifies this
      ensures Valid()
      ensures u == RowOf(old(nextId), n)
      ensures rows == old(rows) + [u] && nextId == old(nextId) + 1
    {
      u := RowOf(nextId, n);
      rows := rows + [u];
      nextId := nextId + 1;
    }

    /** `update(patch, { where: { id } })` (and `save()` of a loaded row). */
    method Update(id: nat, p: UserPatch)
      requires Valid()
      modifies this
      ensures Valid() && nextId == old(nextId)
      ensures rows == UpdateWhereId(old(rows), id, p)
    {
      rows := UpdateWhereId(rows, id, p);
    }

    /** `destroy({ where: { id } })`. */
    method Remove(id: nat)
      requires Valid()
      modifies this
      ensures Valid() && nextId == old(nextId)
      ensures rows == Filter(old(rows), (u: User) => u.id != id)
    {
      var kept := Filter(rows, (u: User) => u.id != id);
      assert WellFormed(kept, nextId) by {
        KeptRowsWellFormed(rows, nextId, id);
      }
      rows := kept;
    }
  }

  /** Deleting rows keeps the table invariant. */
  lemma {:induction false} KeptRowsWellFormed(rows: seq<User>, nextId: nat, id: nat)
    requires WellFormed(rows, nextId)
    ensures WellFormed(Filter(rows, (u: User) => u.id != id), nextId)
  {
    if rows != [] {
      KeptRowsWellFormed(rows[1..], nextId, id);
      var rest := Filter(rows[1..], (u: User) => u.id != id);
      forall j | 0 <= j < |rest|
        ensures rows[0].id != rest[j].id && rows[0].userId != rest[j].userId
      {
        var k :| 0 <= k < |rows[1..]| && rows[1..][k] == rest[j];
        assert rows[k + 1] == rest[j];
      }
    }
  }
}

=== FILE: wrappers.dfy ===
/** Option and Result, and the exceptions the services throw. */
module Wrappers {

  datatype Option<+T> = None | Some(value: T) {
    function GetOr(default: T): T {
      match this
      case Some(v) => v
      case None => default
    }
  }

  /** The exceptions of the backend. The HTTP exception classes carry their
      status; a bare `Error` (and a `TypeError` raised by the runtime) has none. */
  datatype Failure =
    | Unauthorized(message: string)
    | BadRequest(message: string)
    | NotFound(message: string)
    | Conflict(message: string)
    | InternalServerError(message: string)
    | PlainError(message: string)
  {
    /** The `status` property of the exception object, if it has one. */
    function Status(): Option<int> {
      match this
      case Unauthorized(_) => Some(401)
      case BadRequest(_) => Some(400)
      case NotFound(_) => Some(404)
      case Conflict(_) => Some(409)
      case InternalServerError(_) => Some(500)
      case PlainError(_) => None
    }
  }

  /** A call that either returns a value or throws. */
  datatype Result<+T> = Ok(value: T) | Err(error: Failure)

  /** The `TypeError` the runtime throws when code dereferences a missing
      record or calls a member an object does not define. */
  const TypeErrorMessage := "TypeError"
}

=== FILE: youtube.dfy ===
/** `YoutubeService`: channels, of which the "special" ones carry a YouTube
    channel id, and the playlist items stored for each channel. `refreshData`
    fetches the latest uploads of every special channel and replaces that
    channel's stored items with them, each replacement in a transaction of
    its own. The fetch is a parameter: it maps a playlist id to the videos
    the API returns for it. */
module Youtube {
  import opened Wrappers
  import opened Strings
  import opened Tables
  import opened Transaction

  /** A channel row; `channelId` is null for a "general" channel. */
  datatype Channel = Channel(id: nat, channelId: Option<string>, name: string, createdAt: int)

  /** The fields of a playlist item taken from the API's answer. */
  datatype Video = Video(title: string, description: string, thumbnail: string, videoId: string, publishedAt: string)

  /** A stored playlist item: a video and the `id` of the channel row it
      belongs to. */
  datatype PlaylistItem = PlaylistItem(channelId: nat, video: Video)

  /** The arguments of `updatePlaylistItems(id, items)`. */
  datatype PlaylistArg = ChannelKey(id: nat) | Videos(videos: seq<Video>)

  /** The column `getAllGeneralChannels` orders by. */
  datatype SortKey = ByName | ByCreatedAt

  /** `Channel with ID ${id} not found`. */
  function ChannelNotFound(id: nat): string
  {
    "Channel with ID " + ToDecimal(id) + " not found"
  }

  /** The uploads playlist of a channel: `UU` followed by the channel id
      without its first two characters (`substring(2)`, empty for a shorter
      id). */
  function PlaylistId(channelId: string): (r: string)
    ensures |r| >= 2 && r[..2] == "UU"
    ensures |channelId| >= 2 ==> r[2..] == channelId[2..] && |r| == |channelId|
    ensures |channelId| < 2 ==> r == "UU"
  {
    "UU" + if |channelId| >= 2 then channelId[2..] else ""
  }

  /** YouTube channel ids start with `UC`; for those the playlist id tells
      the channel id apart, so distinct channels are fetched from distinct
      playlists. */
  lemma PlaylistIdInjective(a: string, b: string)
    requires |a| >= 2 && a[..2] == "UC" && |b| >= 2 && b[..2] == "UC"
    requires PlaylistId(a) == PlaylistId(b)
    ensures a == b
  {
    assert a == a[..2] + a[2..];
    assert b == b[..2] + b[2..];
    assert a[2..] == PlaylistId(a)[2..];
  }

  /** The items of one channel, in table order. */
  function ItemsOf(items: seq<PlaylistItem>, id: nat): (r: seq<PlaylistItem>)
    ensures forall it :: it in r <==> it in items && it.channelId == id
  {
    Filter(items, (it: PlaylistItem) => it.channelId == id)
  }

  /** The fetched videos as rows of channel `id`: `{ ...item, channelId: id }`. */
  function Tag(videos: seq<Video>, id: nat): (r: seq<PlaylistItem>)
    ensures |r| == |videos|
    ensures forall i :: 0 <= i < |r| ==> r[i] == PlaylistItem(id, videos[i])
  {
    if videos == [] then [] else [PlaylistItem(id, videos[0])] + Tag(videos[1..], id)
  }

  /** `destroy({ where: { channelId: id } })` then `bulkCreate` of the
      fetched videos for channel `id`. */
  function ReplaceItems(items: seq<PlaylistItem>, id: nat, videos: seq<Video>): (r: seq<PlaylistItem>)
    ensures forall it: PlaylistItem :: it.channelId != id ==> (it in r <==> it in items)
    ensures forall it: PlaylistItem :: it in r && it.channelId == id ==> it.video in videos
    ensures forall v :: v in videos ==> PlaylistItem(id, v) in r
  {
    Filter(items, (it: PlaylistItem) => it.channelId != id) + Tag(videos, id)
  }

  /** After a replacement the channel holds exactly the fetched videos, in
      the order fetched, and every other channel holds what it held. */
  lemma {:induction false} ReplaceItemsEffect(items: seq<PlaylistItem>, id: nat, videos: seq<Video>, other: nat)
    requires other != id
    ensures ItemsOf(ReplaceItems(items, id, videos), id) == Tag(videos, id)
    ensures ItemsOf(ReplaceItems(items, id, videos), other) == ItemsOf(items, other)
  {
    var kept := Filter(items, (it: PlaylistItem) => it.channelId != id);
    var tagged := Tag(videos, id);
    FilterAppend(kept, tagged, (it: PlaylistItem) => it.channelId == id);
    FilterAppend(kept, tagged, (it: PlaylistItem) => it.channelId == other);
    FilterNone(kept, (it: PlaylistItem) => it.channelId == id);
    FilterAll(tagged, (it: PlaylistItem) => it.channelId == id);
    FilterNone(tagged, (it: PlaylistItem) => it.channelId == other);
    assert ItemsOf(kept, other) == ItemsOf(items, other) by {
      FilterOfFilter(items, id, other);
    }
  }

  /** Keeping the rows of other channels than `id` and then those of
      `other` is keeping those of `other`. */
  lemma {:induction false} FilterOfFilter(items: seq<PlaylistItem>, id: nat, other: nat)
    requires other != id
    ensures ItemsOf(Filter(items, (it: PlaylistItem) => it.channelId != id), other) == ItemsOf(items, other)
  {
    if items != [] {
      FilterOfFilter(items[1..], id, other);
    }
  }

  /** Replacing twice with the same videos is replacing once. */
  lemma ReplaceItemsIdempotent(items: seq<PlaylistItem>, id: nat, videos: seq<Video>)
    ensures ReplaceItems(ReplaceItems(items, id, videos), id, videos) == ReplaceItems(items, id, videos)
  {
    var p := (it: PlaylistItem) => it.channelId != id;
    var kept := Filter(items, p);
    var tagged := Tag(videos, id);
    assert ReplaceItems(items, id, videos) == kept + tagged;
    FilterAppend(kept, tagged, p);
    FilterAll(kept, p);
    FilterNone(tagged, p);
    assert Filter(kept + tagged, p) == kept;
  }

  /** The channels `refreshData` and `getAllSpecialChannels` read:
      `channelId` not null, in table order. */
  function Special(channels: seq<Channel>): (r: seq<Channel>)
    ensures forall c :: c in r <==> c in channels && c.channelId.Some?
  {
    Filter(channels, (c: Channel) => c.channelId.Some?)
  }

  /** The value a channel is ordered by; names are ranked by the database's
      collation, given as `collation`. */
  function KeyOf(sort: SortKey, collation: string -> int): Channel -> int
  {
    match sort
    case ByName => (c: Channel) => collation(c.name)
    case ByCreatedAt => (c: Channel) => c.createdAt
  }

  predicate SortedBy(rows: seq<Channel>, key: Channel -> int)
  {
    forall i, j :: 0 <= i < j < |rows| ==> key(rows[i]) <= key(rows[j])
  }

  function InsertSorted(c: Channel, rows: seq<Channel>, key: Channel -> int): (r: seq<Channel>)
    requires SortedBy(rows, key)
    ensures SortedBy(r, key)
    ensures multiset(r) == multiset(rows) + multiset{c}
    ensures forall x :: x in r ==> x == c || x in rows
  {
    if rows == [] then [c]
    else if key(c) <= key(rows[0]) then [c] + rows
    else
      assert rows == [rows[0]] + rows[1..];
      var rest := InsertSorted(c, rows[1..], key);
      InsertedAfterHead(rows[0], rest, c, rows, key);
      [rows[0]] + rest
  }

  /** A head no greater than any element behind it keeps a sorted tail
      sorted. */
  lemma InsertedAfterHead(h: Channel, rest: seq<Channel>, c: Channel, rows: seq<Channel>, key: Channel -> int)
    requires |rows| >= 1 && rows[0] == h && SortedBy(rows, key) && key(h) < key(c)
    requires SortedBy(rest, key)
    requires forall x :: x in rest ==> x == c || x in rows
    ensures SortedBy([h] + rest, key)
  {
    var r := [h] + rest;
    forall i, j | 0 <= i < j < |r| ensures key(r[i]) <= key(r[j]) {
      if i == 0 {
        assert r[j] == rest[j - 1] && rest[j - 1] in rest;
      } else {
        assert r[i] == rest[i - 1] && r[j] == rest[j - 1];
      }
    }
  }

  /** `order: [[sort, 'ASC']]`: the rows in ascending order of the key. */
  function SortBy(rows: seq<Channel>, key: Channel -> int): (r: seq<Channel>)
    ensures SortedBy(r, key)
    ensures multiset(r) == multiset(rows)
  {
    if rows == [] then []
    else
      assert rows == [rows[0]] + rows[1..];
      InsertSorted(rows[0], SortBy(rows[1..], key), key)
  }

  /** `getAllGeneralChannels(sort)`: the channels whose `channelId` is null,
      in ascending order of `sort`. */
  function General(channels: seq<Channel>, sort: SortKey, collation: string -> int): (r: seq<Channel>)
    ensures SortedBy(r, KeyOf(sort, collation))
    ensures multiset(r) == multiset(Filter(channels, (c: Channel) => c.channelId.None?))
    ensures forall c :: c in r <==> c in channels && c.channelId.None?
  {
    var general := Filter(channels, (c: Channel) => c.channelId.None?);
    var r := SortBy(general, KeyOf(sort, collation));
    assert forall c :: c in r <==> c in multiset(general);
    r
  }

  /** Special and general channels together are all the channels, each
      once. */
  lemma SpecialGeneralPartition(channels: seq<Channel>, sort: SortKey, collation: string -> int)
    ensures multiset(Special(channels)) + multiset(General(channels, sort, collation)) == multiset(channels)
  {
    FilterPartition(channels, (c: Channel) => c.channelId.Some?, (c: Channel) => c.channelId.None?);
  }

  /** `getChannel(id)`: `findByPk`, NotFound for an unknown id. */
  function GetChannel(channels: seq<Channel>, id: nat): (r: Result<Channel>)
    ensures r.Ok? <==> exists i :: 0 <= i < |channels| && channels[i].id == id
    ensures r.Ok? ==> r.value in channels && r.value.id == id
    ensures r.Err? ==> r.error == NotFound(ChannelNotFound(id))
  {
    match FindFirst(channels, (c: Channel) => c.id == id)
    case None => Err(NotFound(ChannelNotFound(id)))
    case Some(c) => Ok(c)
  }

  /** `getPlaylist(channelId)`: NotFound for an unknown channel, else its
      items. */
  function GetPlaylist(channels: seq<Channel>, items: seq<PlaylistItem>, id: nat): (r: Result<seq<PlaylistItem>>)
    ensures r.Ok? <==> GetChannel(channels, id).Ok?
    ensures r.Ok? ==> r.value == ItemsOf(items, id)
    ensures r.Err? ==> r.error == NotFound(ChannelNotFound(id))
  {
    match GetChannel(channels, id)
    case Err(e) => Err(e)
    case Ok(c) => Ok(ItemsOf(items, c.id))
  }

  /** The body of `updatePlaylistItems(id, items, transaction)` under its
      handle. `getPlaylist` runs before the `try`, so an unknown channel
      throws out of the body. Its answer is an array and so always truthy:
      the destroy always runs. With `selfCommit` the body ends by committing
      the handle itself, as written at line 95; without it, it leaves the
      handle open for the decorator. */
  function UpdatePlaylistItemsBody(channels: seq<Channel>, selfCommit: bool, args: seq<Arg<PlaylistArg>>, items: seq<PlaylistItem>)
    : (r: Step<seq<PlaylistItem>, ()>)
    ensures r.outcome.Err? ==> r.after == items && r.closed.None?
    ensures r.outcome.Ok? <==> |args| >= 2 && args[0].Value? && args[0].value.ChannelKey? && args[1].Value? && args[1].value.Videos?
                               && exists k :: 0 <= k < |channels| && channels[k].id == args[0].value.id
    ensures r.outcome.Ok? ==> ItemsOf(r.after, args[0].value.id) == Tag(args[1].value.videos, args[0].value.id)
    ensures r.outcome.Ok? ==> (r.closed == Some(CommittedByOperation) <==> selfCommit) && (r.closed.None? <==> !selfCommit)
  {
    if |args| >= 2 && args[0].Value? && args[0].value.ChannelKey? && args[1].Value? && args[1].value.Videos? then
      var id := args[0].value.id;
      match GetPlaylist(channels, items, id)
      case Err(e) => Step(items, None, Err(e))
      case Ok(_) =>
        ReplaceItemsEffect(items, id, args[1].value.videos, id + 1);
        Step(ReplaceItems(items, id, args[1].value.videos), if selfCommit then Some(CommittedByOperation) else None, Ok(()))
    else Step(items, None, Err(PlainError(TypeErrorMessage)))
  }

  /** The items after refreshing `specials` in order, each from the
      playlist its channel id names. */
  function RefreshAll(items: seq<PlaylistItem>, specials: seq<Channel>, fetch: string -> seq<Video>): (r: seq<PlaylistItem>)
    ensures forall it: PlaylistItem :: it in r && it !in items ==> exists k :: 0 <= k < |specials| && specials[k].id == it.channelId
    decreases |specials|
  {
    if specials == [] then items
    else
      var c := specials[0];
      RefreshAll(ReplaceItems(items, c.id, fetch(PlaylistId(c.channelId.GetOr("")))), specials[1..], fetch)
  }

  /** Refreshing channels other than `id` leaves the items of `id` alone. */
  lemma {:induction false} RefreshAllKeepsOthers(items: seq<PlaylistItem>, specials: seq<Channel>, fetch: string -> seq<Video>, id: nat)
    requires forall k :: 0 <= k < |specials| ==> specials[k].id != id
    ensures ItemsOf(RefreshAll(items, specials, fetch), id) == ItemsOf(items, id)
    decreases |specials|
  {
    if specials != [] {
      var c := specials[0];
      var videos := fetch(PlaylistId(c.channelId.GetOr("")));
      ReplaceItemsEffect(items, c.id, videos, id);
      RefreshAllKeepsOthers(ReplaceItems(items, c.id, videos), specials[1..], fetch, id);
    }
  }

  /** After a refresh of channels with distinct row ids, each refreshed
      channel holds exactly the videos of its playlist, and every other
      channel holds what it held. */
  lemma {:induction false} RefreshAllEffect(items: seq<PlaylistItem>, specials: seq<Channel>, fetch: string -> seq<Video>)
    requires forall i, j :: 0 <= i < j < |specials| ==> specials[i].id != specials[j].id
    ensures forall k :: 0 <= k < |specials| ==>
              ItemsOf(RefreshAll(items, specials, fetch), specials[k].id)
                == Tag(fetch(PlaylistId(specials[k].channelId.GetOr(""))), specials[k].id)
    decreases |specials|
  {
    if specials != [] {
      var c := specials[0];
      var videos := fetch(PlaylistId(c.channelId.GetOr("")));
      var next := ReplaceItems(items, c.id, videos);
      var rest := specials[1..];
      RefreshAllEffect(next, rest, fetch);
      forall k | 0 <= k < |specials|
        ensures ItemsOf(RefreshAll(items, specials, fetch), specials[k].id)
                  == Tag(fetch(PlaylistId(specials[k].channelId.GetOr(""))), specials[k].id)
      {
        if k == 0 {
          assert forall m :: 0 <= m < |rest| ==> rest[m].id != c.id by {
            forall m | 0 <= m < |rest| ensures rest[m].id != c.id {
              assert rest[m] == specials[m + 1];
            }
          }
          RefreshAllKeepsOthers(next, rest, fetch, c.id);
          ReplaceItemsEffect(items, c.id, videos, c.id + 1);
        } else {
          assert specials[k] == rest[k - 1];
        }
      }
    }
  }

  class YoutubeService {
    /** The injected `TransactionService`, over the committed playlist
        items. */
    const transactions: TransactionService<seq<PlaylistItem>>
    var channels: seq<Channel>

    constructor (transactions: TransactionService<seq<PlaylistItem>>, channels: seq<Channel>)
      ensures this.transactions == transactions && this.channels == channels
    {
      this.transactions := transactions;
      this.channels := channels;
    }

    /** `updatePlaylistItems(id, items)` as written: the body commits its
        handle itself, so the decorator's commit throws, its rollback throws
        as well, and the call fails although the replacement is committed.
        An unknown channel throws NotFound and changes nothing. */
    method UpdatePlaylistItemsAsWritten(id: nat, videos: seq<Video>) returns (r: Result<()>)
      modifies transactions
      ensures transactions.handles == old(transactions.handles) + 1
      ensures GetChannel(channels, id).Err? ==>
                r == Err(NotFound(ChannelNotFound(id))) && transactions.committed == old(transactions.committed)
      ensures GetChannel(channels, id).Ok? ==>
                && r == Err(CannotRollBack(Committed))
                && transactions.committed == ReplaceItems(old(transactions.committed), id, videos)
    {
      r := RunUpdate(id, videos, true);
    }

    /** `updatePlaylistItems(id, items)` as evidently intended: the decorator
        commits the replacement and the call succeeds. */
    method UpdatePlaylistItems(id: nat, videos: seq<Video>) returns (r: Result<()>)
      modifies transactions
      ensures transactions.handles == old(transactions.handles) + 1
      ensures GetChannel(channels, id).Err? ==>
                r == Err(NotFound(ChannelNotFound(id))) && transactions.committed == old(transactions.committed)
      ensures GetChannel(channels, id).Ok? ==>
                r == Ok(()) && transactions.committed == ReplaceItems(old(transactions.committed), id, videos)
    {
      r := RunUpdate(id, videos, false);
    }

    /** The decorated call of the body, with or without its own commit. */
    method RunUpdate(id: nat, videos: seq<Video>, selfCommit: bool) returns (r: Result<()>)
      modifies transactions
      ensures transactions.handles == old(transactions.handles) + 1
      ensures GetChannel(channels, id).Err? ==>
                r == Err(NotFound(ChannelNotFound(id))) && transactions.committed == old(transactions.committed)
      ensures GetChannel(channels, id).Ok? ==>
                && r == (if selfCommit then Err(CannotRollBack(Committed)) else Ok(()))
                && transactions.committed == ReplaceItems(old(transactions.committed), id, videos)
    {
      var known := channels;
      var args := [Value(ChannelKey(id)), Value(Videos(videos))];
      var body := (args: seq<Arg<PlaylistArg>>, items: seq<PlaylistItem>) => UpdatePlaylistItemsBody(known, selfCommit, args, items);
      ghost var before := transactions.committed;
      ghost var h := transactions.handles;
      r := Transactional(transactions, args, body);
      ghost var st := body(args + [Handle(h)], before);
      assert st == UpdatePlaylistItemsBody(known, selfCommit, [Value(ChannelKey(id)), Value(Videos(videos)), Handle(h)], before);
      ghost var state: TxState :| Settled(before, st, r, transactions.committed, state);
    }

    /** `refreshData()` as written: the first special channel's items are
        replaced and committed, then its `updatePlaylistItems` call fails and
        the error leaves the loop, so no later channel is refreshed. */
    method RefreshDataAsWritten(fetch: string -> seq<Video>) returns (r: Result<()>)
      modifies transactions
      ensures Special(channels) == [] ==> r == Ok(()) && transactions.committed == old(transactions.committed)
      ensures Special(channels) != [] ==>
                var first := Special(channels)[0];
                && r == Err(CannotRollBack(Committed))
                && transactions.committed
                     == ReplaceItems(old(transactions.committed), first.id, fetch(PlaylistId(first.channelId.value)))
    {
      var specials := Special(channels);
      r := Ok(());
      var i := 0;
      while i < |specials| && r.Ok?
        invariant 0 <= i <= |specials|
        invariant specials == Special(channels)
        invariant i == 0 ==> r == Ok(()) && transactions.committed == old(transactions.committed)
        invariant i > 0 ==>
                    && i == 1 && r == Err(CannotRollBack(Committed))
                    && transactions.committed
                         == ReplaceItems(old(transactions.committed), specials[0].id, fetch(PlaylistId(specials[0].channelId.value)))
        decreases |specials| - i
      {
        var c := specials[i];
        assert c in channels;
        var items := fetch(PlaylistId(c.channelId.value));
        r := UpdatePlaylistItemsAsWritten(c.id, items);
        i := i + 1;
      }
    }

    /** `refreshData()` as evidently intended: every special channel, in the
        order read, has its items replaced by the videos of its uploads
        playlist, one committed transaction each. */
    method RefreshData(fetch: string -> seq<Video>) returns (r: Result<()>)
      modifies transactions
      ensures r == Ok(())
      ensures transactions.committed == RefreshAll(old(transactions.committed), Special(channels), fetch)
      ensures transactions.handles == old(transactions.handles) + |Special(channels)|
    {
      var specials := Special(channels);
      r := Ok(());
      var i := 0;
      while i < |specials| && r.Ok?
        invariant 0 <= i <= |specials|
        invariant specials == Special(channels)
        invariant r == Ok(())
        invariant RefreshAll(transactions.committed, specials[i..], fetch)
                  == RefreshAll(old(transactions.committed), specials, fetch)
        invariant transactions.handles == old(transactions.handles) + i
        decreases |specials| - i
      {
        var c := specials[i];
        assert c in channels;
        assert specials[i..][1..] == specials[i + 1..];
        var items := fetch(PlaylistId(c.channelId.value));
        r := UpdatePlaylistItems(c.id, items);
        i := i + 1;
      }
    }
  }
}
